=== FILE: README.md ===
# RelayMail send pipeline and key lifecycle, in Dafny

RelayMail is a multi-tenant transactional-email relay. Account holders create
API keys. Clients then call `POST /api/v1/send` with `Authorization: Bearer <key>`
and a JSON payload, and the service hands the message to one configured upstream
SMTP server. Every attempt that gets that far is recorded in a delivery log.

This project models that core as pure functions over an immutable store of
three tables: accounts, API keys and delivery-log rows.

- `Send.SendEmail` is the send handler together with its API-key guard. The steps run in order:
  - bearer-token parsing and active-key lookup (401);
  - payload validation (400);
  - the SMTP configuration check (500, no row);
  - the SMTP conversation;
  - one log row with a terminal status.

  It returns the HTTP response, the new store and the list of SMTP client calls made.
- The SMTP server is a transport oracle (`Smtp.Transport`). It lists which client calls raise, and with what text. `Smtp.Session` makes these calls:
  - port 465: `SMTP_SSL` then `ehlo`;
  - any other port: `SMTP`, `ehlo`, `starttls`, `ehlo`;
  - then `login` and `sendmail`.

  It stops at the first failure. It calls `quit` exactly when the connection object was created, and ignores any failure of `quit`.
- The process environment is an explicit `Smtp.Env` value. `Smtp.LoadConfig` models the cleaning step. The server, user name and password go through `str.strip()`. The port goes through Python's `int()` and falls back to 587. `int()` skips a narrower set of whitespace than `strip()`: it rejects the ASCII information separators U+001C..U+001F. It also rejects a digit part of more than 4300 digits (CPython's default limit on integer string conversion, counting leading zeros but not underscores).
- Key management (`Keys`) covers these operations:
  - creation with a freshly generated token;
  - the listing of the caller's active keys with masked tokens (`rk_live_` + first four characters + `...`);
  - revocation, which clears `is_active` for a key the caller owns.
- The log listing and dashboard counters (`Emails`): the caller's 100 newest rows, newest first, and the sent / failed / total / active-key counts.
- Signup with unique e-mail addresses, and password login (`Accounts`).
- Runs of requests (`Lifecycle`): each state-changing endpoint (key creation, revocation, send, signup) is one step on the store. A revoked token stays revoked, and so refused, over any run of later steps.
- Python's string and integer operations used on the way are `PyText` and `PyInt`: `strip`, `startswith`, `in`, `split(" ")`, `int()` and `str()`.

`Models.Valid` is the store invariant. It covers these constraints:
- primary keys are increasing;
- e-mails and tokens are unique;
- every key has an owner that exists;
- every log row references an existing key;
- every stored row is `sent` or `failed`, and has an error message exactly when it failed.

Every mutating operation is proved to preserve it.

Some behaviours of the code are easy to miss. The model keeps each of them:
- Validation only checks that the keys `to` and `subject` are present (app.py:108). Empty strings pass. A JSON `null` also passes, and the row then violates the NOT NULL columns (models.py:35-36), so the request ends in an uncaught exception: 500, and no row is stored.
- The row is built as `pending` but added to the session only after it has been given a terminal status. A `pending` row is never stored.
- A failed row's `error_message` is the exception text as given (`str(e)`). It is empty when the upstream error text is empty.
- `quit` is attempted only if the connection object was created. When the connection call itself fails, no further call is made.

## Model

| member | source | states |
|---|---|---|
| PyText.TrimLeft | app.py:123 | removal of leading characters of a class (whitespace for `strip()`): the result is a suffix, everything removed is in the class, and the result does not start with a character of the class |
| PyText.TrimRight | app.py:123 | removal of trailing characters of a class: the result is a prefix, everything removed is in the class, and the result does not end with a character of the class |
| PyText.StripEmptyIffAllSpace | app.py:123-131 | a stripped setting is empty exactly when the raw setting is all whitespace, which is what `not smtp_server` tests after `.strip()` |
| PyText.ContainsIffSlice | app.py:171 | Python's substring test holds exactly when the text occurs at some position |
| PyText.JoinSplit | app.py:47 | `split(" ")` loses nothing: joining the pieces with the separator gives back the header |
| PyText.SplitNoSeparator | app.py:47 | no piece produced by `split(" ")` contains a space |
| PyText.SplitFirstPiece | app.py:47 | the first piece of a split is everything before the first separator |
| PyText.SplitSecondPiece | app.py:47 | for a header `"Bearer " + rest` the second field always exists and is `rest` up to its first space (empty for `"Bearer "`) |
| PyInt.NatToString | app.py:195 | decimal rendering of a port: non-empty, digits only, no leading zero |
| PyInt.ParseIntToString | app.py:124-127 | `int(str(n)) == n` for every integer of at most 4300 digits (the integers `str()` renders), signs included |
| PyInt.ParsedRenders | app.py:124-127 | whatever `int()` reads has at most 4300 digits, so `str()` can render it again |
| PyInt.ParseBlankPadded | app.py:124-127 | `int()` skips a blank before a digit part; it returns the digits' value when there are at most 4300 digits and raises otherwise |
| PyInt.ParseSeparatorPadded | app.py:124-127 | a character U+001C..U+001F before a digit part is whitespace to `str.isspace()` but makes `int()` fail |
| Models.NextId | models.py:22 | the id a new row gets is larger than every existing id (so fresh), and is one more than the largest id, or 1 for an empty table |
| Models.MaxId | models.py:34 | the largest id of a non-empty table is one of its ids and bounds all of them |
| Models.AppendLogPreservesValid | models.py:33-40 | storing a terminal row with the next id and an existing key keeps every table constraint |
| Models.AppendKeyPreservesValid | models.py:21-27 | storing a key with the next id, an unused token and an existing owner keeps every table constraint |
| Auth.BearerToken | app.py:47 | the token taken as `split(" ")[1]` is the text after `"Bearer "` up to the next space |
| Auth.FindActiveKey | app.py:48 | the lookup finds a key exactly when some key carries the token and is active, and returns the first such key |
| Auth.Authenticate | app.py:43-53 | authorised exactly for a non-empty header starting with `"Bearer "` whose token belongs to an active key; otherwise the two distinct 401 messages |
| Auth.AuthenticatesUniqueKey | models.py:23 | with unique tokens the authenticated key is the one key carrying the presented token |
| Smtp.ParsePortPadding | app.py:124-127 | a blank before the port number is skipped (the number is read if it has at most 4300 digits, otherwise 587); an information separator there makes the setting fall back to 587, so `"\x1c465"` selects port 587 and STARTTLS |
| Smtp.ParsePortRendered | app.py:124-127 | any integer of at most 4300 digits written as the port setting is read back unchanged |
| Smtp.ParsePortDigits | app.py:124-127 | a port setting of digits selects their value when it has at most 4300 digits and 587 otherwise, whatever the value: `"0" * 4298 + "465"` selects 587 |
| Smtp.PortRenders | app.py:195 | the port the configuration ends up with always has at most 4300 digits, so rendering it in the failure's debug text (and in the debug print at app.py:151) cannot fail |
| Smtp.IncompleteIffBlank | app.py:123-131 | the configuration check fails exactly when the server, user name or password is unset or all whitespace |
| Smtp.BuildMessage | app.py:140-148 | From is the SMTP user name, To and Subject are the request values; a plain part exactly when `body` is truthy, an HTML part exactly when `html` is truthy, plain first |
| Smtp.RunSteps | app.py:154-168 | calls are made in order up to and including the first failing one, whose text is the error; with no failure all calls are made |
| Smtp.Session | app.py:153-179 | `quit` follows exactly when the connection call succeeded, and the error is that of the planned calls; a failed connect is the only call made |
| Smtp.RunStepsIgnoresQuit | app.py:174-179 | how `quit` behaves never affects the calls before it |
| Smtp.SessionIgnoresQuit | app.py:174-179 | the calls made and the error of a conversation do not depend on `quit` failing |
| Smtp.SessionFollowsPlan | app.py:155-166 | every conversation is a prefix of the plan (implicit TLS on port 465, otherwise connect / ehlo / starttls / ehlo; then login, sendmail) ending at the first failure, plus `quit` when connected |
| Send.SendEmail | app.py:102-196 | 401 exactly when authentication fails; at most one row is appended and nothing else changes; SMTP calls happen only after authentication, validation and the configuration check; a new row is terminal, takes the next id and the authenticating key, and is `sent` exactly when the response is 200 |
| Send.RecordOutcome | app.py:181-196 | after the conversation the only change is one appended terminal row, `sent` exactly when the response is 200, or none (null `to`/`subject`); responses are 200 or 500 |
| Send.RejectedRequestLeavesNoTrace | app.py:43-51 | a missing, malformed, unknown or inactive bearer token gives 401 with no SMTP call and no row |
| Send.InvalidPayloadLeavesNoTrace | app.py:108-120 | an authenticated request is answered 400 exactly when the payload is absent, empty, lacks `to` or `subject`, or has neither truthy `body` nor `html`, each with its message, and with no SMTP call and no row |
| Send.IncompleteConfigLeavesNoTrace | app.py:123-134 | a blank server, user name or password gives 500 "Server configuration error" with no SMTP call and no row |
| Send.TransportFollowsPlan | app.py:153-179 | once past the configuration check, the SMTP calls made are a non-empty prefix of the planned conversation for the configuration and the request: every call before the last one made succeeded, the prefix is shorter than the plan only when its last call failed, and `quit` follows exactly when the connection call succeeded |
| Send.DeliveryIsLogged | app.py:136-196 | a request that reaches SMTP appends exactly one row with the request's recipient, subject, key, time and the next id: `sent` with 200 and that id, or `failed` with the error text and 500 |
| Send.NullFieldIsNotLogged | models.py:35-36 | a null `to` or `subject` passes validation but cannot be stored: 500 and the store is unchanged |
| Send.ErrorTextReplacesUnreachable | app.py:168-173 | errors mentioning "Network is unreachable" or "Errno 101" are reported as the fixed hint, all others verbatim |
| Send.QuitNeverChangesOutcome | app.py:174-179 | the response, the store and the calls made do not depend on `quit` failing |
| Send.SendPreservesValid | models.py:33-40 | sending keeps every table constraint; in particular no `pending` row is ever stored |
| Send.RepeatedSendLogsTwice | app.py:136 | no deduplication: the same request sent twice records two rows with distinct ids |
| Keys.CreateKey | app.py:202-208 | 201 exactly when the name is not null and the token is unused; the new key is active, owned by the caller, carries the token, gets the next id (one past the largest id in the key table, so not already used), is named from the payload or the default; otherwise 500 and no change |
| Keys.CreateKeyPreservesValid | models.py:21-27 | creating a key for an existing account keeps every table constraint |
| Keys.FindAppendedKey | models.py:23 | an active key appended with a token no other key has is the one that token resolves to |
| Keys.CreatedKeyAuthenticates | app.py:202-208 | a freshly created key authenticates at once as itself with `Bearer <token>` |
| Keys.MaskToken | app.py:222 | the shown token is `rk_live_`, then exactly the first four characters of the token (all of it when shorter), then `...` |
| Keys.MaskDependsOnPrefixOnly | app.py:222 | tokens agreeing on their first four characters are shown identically |
| Keys.ActiveKeysOf | app.py:210 | the listing holds exactly the caller's active keys |
| Keys.ActiveKeysFilter | app.py:210 | the listing holds each of the caller's active keys as many times as the table does, and no other key |
| Keys.ActiveKeysInOrder | app.py:210 | filtering keeps table order: with increasing ids in the table, the caller's active keys have increasing ids |
| Keys.ListKeysShowsActiveKeys | app.py:209-225 | every entry of the key listing is the masked view of an active key of the caller, and every active key of the caller is shown |
| Keys.ListKeysInOrder | app.py:209-225 | with increasing key ids in the table, the listing shows each key once, in table order |
| Keys.LastUsed | app.py:215-217 | last use is absent exactly when the key has no rows, and is otherwise the newest timestamp among its rows |
| Keys.FindOwnedKey | app.py:230 | finds a key exactly when one has the given id and is owned by the caller |
| Keys.FindOwnedKeyIgnoresActive | app.py:230 | the id-and-owner lookup does not depend on active flags |
| Keys.RevokeKey | app.py:227-235 | 404 with no change unless a key with that id is owned by the caller; otherwise 200 and only that key's active flag is cleared, nothing deleted |
| Keys.RevokeIdempotent | app.py:230-235 | revoking again answers 200 and changes nothing more |
| Keys.RevokePreservesValid | app.py:233 | revoking keeps every table constraint |
| Keys.RevokedKeyIsRejected | app.py:233 | right after the revoke the key's token no longer authenticates, and the key stays in the table |
| Lifecycle.RevokedRejects | app.py:48-53 | a token that is in the key table but carried only by inactive keys is refused with "Invalid API Key" |
| Lifecycle.RevokeMakesRevoked | app.py:227-235 | revoking a key the caller owns answers 200 and leaves its token carried only by inactive keys, since tokens are unique |
| Lifecycle.StepKeepsRevoked | app.py:202-208 | no request (key creation, revocation, send, signup) makes a revoked token active again: a new key must carry an unused token, a revoke only clears flags, and the other endpoints leave the key table alone |
| Lifecycle.RunKeepsRevoked | app.py:227-235 | a revoked token stays revoked over any sequence of later requests |
| Lifecycle.RevokedKeyNeverAuthenticates | app.py:43-53 | once a key is revoked, its token never authenticates again, whatever keys are created or revoked, mail sent or accounts registered afterwards |
| Emails.FindKeyById | app.py:248 | finds the key a row refers to exactly when one with that id exists |
| Emails.CallerEntries | app.py:241 | the join keeps exactly the rows whose key belongs to the caller, each with that key |
| Emails.CallerEntriesFilter | app.py:241 | each of the caller's rows appears in the join as many times as in the log, paired with the key it was sent with; no other pair appears |
| Emails.Insert | app.py:241 | inserting into a newest-first list keeps it newest first and adds exactly that row |
| Emails.SortNewestFirst | app.py:241 | the sort is a permutation of the rows, newest first |
| Emails.Newest | app.py:241 | `limit(100)` after the sort: the right number of rows, newest first, all from the input, and none left out is newer than one kept |
| Emails.GetEmails | app.py:237-249 | at most 100 entries, newest first |
| Emails.ListingIsCallersNewest | app.py:241 | every listed row is one of the caller's, and the listing holds the caller's newest rows |
| Emails.CountStatus | app.py:257-258 | a status count is the multiplicity of that status among the rows' statuses, so never more than the number of rows |
| Emails.CountStatusOfJoin | app.py:255-258 | counting a status on the caller's join gives the number of the caller's rows in the log with that status |
| Emails.SentPlusFailedIsTotal | app.py:256-258 | with only terminal rows, the sent and failed counts add up to the total |
| Emails.GetMetrics | app.py:253-269 | the total is the number of the caller's rows in the join, sent and failed are the multiplicities of those statuses among them (each at most the total), and the active-key count equals the length of the key listing |
| Emails.MetricsCountOwnedRows | app.py:255-258 | the sent and failed counters are the numbers of the caller's rows in the log with that status |
| Emails.MetricsAddUp | app.py:256-258 | in a valid store the dashboard's sent plus failed equals total |
| Accounts.Signup | app.py:62-73 | an e-mail already registered adds no account and leaves the store unchanged; otherwise exactly one account with a fresh id is added |
| Accounts.SignupPreservesValid | models.py:11 | registration keeps e-mails unique and every other constraint |
| Accounts.FindUser | app.py:87 | finds an account exactly when one is registered under the e-mail |
| Accounts.Login | app.py:84-92 | login succeeds only as an account registered under the e-mail whose stored hash accepts the password; with unique e-mails, a failed login means no such account accepts it |

## Left out

- HTTP routing, CORS, sessions and login state are left out. The logged-in caller is an explicit user id, and the redirects of already-authenticated users on the signup and login pages are not modelled.
- Database sessions are not modelled. Commit failures are left out, except the two the schema makes certain: a null `to`/`subject`/key name (NOT NULL) and a reused token (UNIQUE). String length limits are not enforced by SQLite and are not modelled.
- Network I/O, TLS and MIME serialisation are replaced by the transport oracle. A failure while serialising the message is folded into the `sendmail` call.
- Password hashing is opaque: signup receives the hash, and login takes the verification predicate as a parameter.
- Random token generation is a parameter. A generated token that collides with an existing one is modelled as the resulting uniqueness failure.
- The clock is an integer parameter. The default key name "Key <date>" is passed in ready-made.
- Debug printing and `.env` loading are left out.
- The success-rate percentage in the metrics is left out because it uses floating-point rounding.
- The browser dashboard script and the manual test client are left out because they are not part of the service.
- Payloads that are not JSON objects, and JSON values other than strings and `null`, are not modelled.
- Form fields missing from the signup and login forms are not modelled.
- PyInt.ParseInt: non-ASCII decimal digits, which Python's `int()` accepts, are treated as invalid.
- PyInt.ParseInt: the digit limit is CPython's default of 4300. A different limit set through `PYTHONINTMAXSTRDIGITS` or `-X int_max_str_digits` is not modelled.
- Smtp.Transport: every SMTP call is assumed to return or raise. The source sets no timeout when it creates the connection (app.py:156, 159), so a server that stops answering blocks the request and no row is written. The logging lemmas describe requests that finish.
- PyInt.IntToString: renders integers of any length, where CPython's `str()` raises past 4300 digits. The only integer rendered is the port, which `Smtp.PortRenders` shows is always within the limit.
- Strings holding lone surrogates (U+D800..U+DFFF) are not modelled, because a Dafny `char` cannot hold one. Python's JSON decoder accepts an escaped lone surrogate in a `str`. In the source such a `body` or `html` makes message building fail with `UnicodeEncodeError` before any connection is made, which stores a `failed` row with no SMTP call. The model has no such outcome: every logged send in it has made at least one SMTP call.
- Keys.ListKeys: the key listing has no `ORDER BY`. It is modelled in table order, which is what SQLite returns in practice.
- Emails.GetEmails: rows with equal timestamps are kept in table order. SQL leaves their order open.
- Keys.ListKeys: the fallback to the current time for a key without `created_at` is not modelled, because every key the service creates has one.
- Logout, the user loader and the HTML page routes are left out because they hold no logic beyond framework calls.


=== FILE: accounts.dfy ===
/** Account registration and password login. Password hashing is opaque: the
    caller supplies the hash of a new password, and verification is a
    predicate over (stored hash, offered password). */
module Accounts {
  import opened Options
  import opened Models

  predicate EmailTaken(users: seq<User>, email: string) {
    exists i :: 0 <= i < |users| && users[i].email == email
  }

  datatype SignupResult = Registered(userId: int) | AlreadyRegistered

  datatype SignupOutcome = SignupOutcome(result: SignupResult, store: Store)

  /** `POST /signup`: an e-mail already registered adds no account; otherwise
      a new account with the next id is stored and logged in. */
  function Signup(store: Store, email: string, passwordHash: string): (out: SignupOutcome)
    ensures out.store.keys == store.keys && out.store.logs == store.logs
    ensures out.result == AlreadyRegistered <==> EmailTaken(store.users, email)
    ensures out.result == AlreadyRegistered ==> out.store == store
    ensures out.result.Registered? ==>
              out.store.users == store.users + [User(out.result.userId, email, passwordHash)]
              && out.result.userId !in UserIds(store.users)
  {
    if EmailTaken(store.users, email) then SignupOutcome(AlreadyRegistered, store)
    else
      var user := User(NextId(UserIds(store.users)), email, passwordHash);
      SignupOutcome(Registered(user.id), store.(users := store.users + [user]))
  }

  /** Registration keeps e-mails unique and the store valid. */
  lemma SignupPreservesValid(store: Store, email: string, passwordHash: string)
    requires Valid(store)
    ensures Valid(Signup(store, email, passwordHash).store)
  {
    var out := Signup(store, email, passwordHash);
    if out.result.Registered? {
      var ids := UserIds(store.users);
      AppendNextId(ids);
      var users := out.store.users;
      assert UserIds(users) == ids + [NextId(ids)];
      forall i | 0 <= i < |store.keys| ensures store.keys[i].userId in UserIds(users) {
        var j :| 0 <= j < |ids| && ids[j] == store.keys[i].userId;
        assert UserIds(users)[j] == ids[j];
      }
      forall i, j | 0 <= i < j < |users| ensures users[i].email != users[j].email {
        if j == |users| - 1 {
          assert users[i] == store.users[i];
        }
      }
    }
  }

  /** The account registered under `email`, if any. */
  function FindUser(users: seq<User>, email: string): (r: Option<User>)
    ensures r.None? <==> !EmailTaken(users, email)
    ensures r.Some? ==> r.value in users && r.value.email == email
    decreases |users|
  {
    if |users| == 0 then None
    else if users[0].email == email then Some(users[0])
    else
      var rest := FindUser(users[1..], email);
      assert forall i :: 1 <= i < |users| ==> users[i] == users[1..][i - 1];
      rest
  }

  /** `POST /login`: the id of the account registered under `email` when the
      offered password matches its stored hash. */
  function Login(store: Store, email: string, password: string,
                 checkPassword: (string, string) -> bool): (r: Option<int>)
    ensures r.Some? ==> exists i :: 0 <= i < |store.users| && store.users[i].id == r.value
                          && store.users[i].email == email
                          && checkPassword(store.users[i].passwordHash, password)
    ensures r.None? && EmailsUnique(store.users) ==>
              forall i :: 0 <= i < |store.users| && store.users[i].email == email ==>
                !checkPassword(store.users[i].passwordHash, password)
  {
    match FindUser(store.users, email)
    case Some(u) =>
      if checkPassword(u.passwordHash, password) then Some(u.id) else None
    case None => None
  }
}

=== FILE: auth.dfy ===
/** The bearer-token check placed in front of the send endpoint: parse the
    `Authorization` header and resolve its token to an active key. */
module Auth {
  import opened Options
  import opened PyText
  import opened Models

  const BearerPrefix: string := "Bearer "

  /** The token of a bearer header, taken as the code does: the second
      `" "`-separated field. It always exists, and it is the text after
      `"Bearer "` up to the next space (empty for `"Bearer "` itself). */
  function BearerToken(header: string): (t: string)
    requires StartsWith(header, BearerPrefix)
    ensures t == TakeUntil(header[|BearerPrefix|..], ' ')
  {
    var rest := header[|BearerPrefix|..];
    assert header == "Bearer" + [' '] + rest;
    SplitSecondPiece("Bearer", rest, ' ');
    Split(header, ' ')[1]
  }

  /** A key answers to `token` when it carries it and is still active. */
  predicate Resolves(k: ApiKey, token: string) {
    k.token == token && k.isActive
  }

  /** `ApiKey.query.filter_by(key=token, is_active=True).first()`: the first
      active key carrying `token`, if there is one. */
  function FindActiveKey(keys: seq<ApiKey>, token: string): (r: Option<ApiKey>)
    ensures r.None? <==> forall i :: 0 <= i < |keys| ==> !Resolves(keys[i], token)
    ensures r.Some? ==> exists i :: 0 <= i < |keys| && keys[i] == r.value
                         && Resolves(r.value, token)
                         && forall j :: 0 <= j < i ==> !Resolves(keys[j], token)
    decreases |keys|
  {
    if |keys| == 0 then None
    else if Resolves(keys[0], token) then Some(keys[0])
    else
      var r := FindActiveKey(keys[1..], token);
      assert forall i :: 1 <= i < |keys| ==> keys[i] == keys[1..][i - 1];
      r
  }

  datatype AuthResult = Authorized(key: ApiKey) | Rejected(error: string)

  /** A header that is present, non-empty and begins with `"Bearer "`. */
  predicate WellFormedHeader(header: Option<string>) {
    header.Some? && header.value != "" && StartsWith(header.value, BearerPrefix)
  }

  /** The outcome of the `require_api_key` guard. */
  function Authenticate(keys: seq<ApiKey>, header: Option<string>): (r: AuthResult)
    ensures r.Authorized? <==>
              WellFormedHeader(header)
              && exists i :: 0 <= i < |keys| && Resolves(keys[i], BearerToken(header.value))
    ensures r.Authorized? ==> r.key in keys && Resolves(r.key, BearerToken(header.value))
    ensures !WellFormedHeader(header) ==> r == Rejected("Missing or invalid API Key")
    ensures WellFormedHeader(header) && r.Rejected? ==> r.error == "Invalid API Key"
  {
    if header.None? || header.value == "" || !StartsWith(header.value, BearerPrefix) then
      Rejected("Missing or invalid API Key")
    else
      match FindActiveKey(keys, BearerToken(header.value))
      case None => Rejected("Invalid API Key")
      case Some(k) => Authorized(k)
  }

  /** With unique tokens, the key a header authenticates as is the one key in
      the store carrying that token. */
  lemma AuthenticatesUniqueKey(keys: seq<ApiKey>, header: Option<string>, i: int)
    requires TokensUnique(keys)
    requires Authenticate(keys, header).Authorized?
    requires 0 <= i < |keys| && keys[i].token == BearerToken(header.value)
    ensures Authenticate(keys, header).key == keys[i]
  {
    var k := Authenticate(keys, header).key;
    var j :| 0 <= j < |keys| && keys[j] == k;
    if j < i {
      assert keys[j].token == keys[i].token;
    } else if i < j {
      assert keys[i].token == keys[j].token;
    }
  }
}

=== FILE: emails.dfy ===
/** The account's view of its delivery log: the latest rows
    (`GET /api/v1/emails`) and the counters of the dashboard
    (`GET /api/v1/metrics`). Both join each row to its key and keep the rows
    whose key belongs to the caller. */
module Emails {
  import opened Options
  import opened Models
  import opened Keys

  const PageLimit: nat := 100

  /** The key with id `id`, if any. */
  function FindKeyById(keys: seq<ApiKey>, id: int): (r: Option<ApiKey>)
    ensures r.None? <==> forall i :: 0 <= i < |keys| ==> keys[i].id != id
    ensures r.Some? ==> r.value in keys && r.value.id == id
    decreases |keys|
  {
    if |keys| == 0 then None
    else if keys[0].id == id then Some(keys[0])
    else
      var rest := FindKeyById(keys[1..], id);
      assert forall i :: 1 <= i < |keys| ==> keys[i] == keys[1..][i - 1];
      rest
  }

  /** A row of the join of the log with the key table. */
  datatype Entry = Entry(log: EmailLog, key: ApiKey)

  /** The row `l` belongs to `caller` through its key. */
  predicate OwnedBy(keys: seq<ApiKey>, l: EmailLog, caller: int) {
    var k := FindKeyById(keys, l.apiKeyId);
    k.Some? && k.value.userId == caller
  }

  /** `e` is a row of the caller's join: its log row belongs to `caller` and
      `e.key` is the key that row was sent with. */
  predicate JoinedFor(keys: seq<ApiKey>, e: Entry, caller: int) {
    OwnedBy(keys, e.log, caller) && e.key == FindKeyById(keys, e.log.apiKeyId).value
  }

  /** The caller's rows, each with its key, in table order. */
  function CallerEntries(keys: seq<ApiKey>, logs: seq<EmailLog>, caller: int): (r: seq<Entry>)
    ensures |r| <= |logs|
    ensures forall i :: 0 <= i < |r| ==>
              r[i].log in logs && r[i].key in keys
              && r[i].key.id == r[i].log.apiKeyId && r[i].key.userId == caller
    ensures forall i :: 0 <= i < |logs| && OwnedBy(keys, logs[i], caller) ==>
              Entry(logs[i], FindKeyById(keys, logs[i].apiKeyId).value) in r
    decreases |logs|
  {
    if |logs| == 0 then []
    else
      var rest := CallerEntries(keys, logs[1..], caller);
      assert forall i :: 1 <= i < |logs| ==> logs[i] == logs[1..][i - 1];
      if OwnedBy(keys, logs[0], caller) then
        [Entry(logs[0], FindKeyById(keys, logs[0].apiKeyId).value)] + rest
      else rest
  }

  /** The caller's join keeps each of the caller's rows exactly as often as
      the log holds it, paired with its own key, and nothing else. */
  lemma {:induction false} CallerEntriesFilter(keys: seq<ApiKey>, logs: seq<EmailLog>, caller: int)
    ensures forall e :: multiset(CallerEntries(keys, logs, caller))[e] ==
              if JoinedFor(keys, e, caller) then multiset(logs)[e.log] else 0
    decreases |logs|
  {
    if |logs| > 0 {
      CallerEntriesFilter(keys, logs[1..], caller);
      assert logs == [logs[0]] + logs[1..];
      if OwnedBy(keys, logs[0], caller) {
        var head := Entry(logs[0], FindKeyById(keys, logs[0].apiKeyId).value);
        assert CallerEntries(keys, logs, caller) == [head] + CallerEntries(keys, logs[1..], caller);
        assert forall e :: JoinedFor(keys, e, caller) && e.log == logs[0] ==> e == head;
      } else {
        assert CallerEntries(keys, logs, caller) == CallerEntries(keys, logs[1..], caller);
        assert forall e :: JoinedFor(keys, e, caller) ==> e.log != logs[0];
      }
    }
  }

  /** Newest first: timestamps never increase along the sequence. */
  predicate NewestFirst(s: seq<Entry>) {
    forall i, j :: 0 <= i < j < |s| ==> s[i].log.timestamp >= s[j].log.timestamp
  }

  /** Inserts `e` into a newest-first sequence, ahead of rows no newer than it. */
  function Insert(e: Entry, s: seq<Entry>): (r: seq<Entry>)
    requires NewestFirst(s)
    ensures NewestFirst(r)
    ensures multiset(r) == multiset(s) + multiset{e}
    ensures |r| == |s| + 1 && (r[0] == e || (|s| > 0 && r[0] == s[0]))
    decreases |s|
  {
    if |s| == 0 || e.log.timestamp >= s[0].log.timestamp then [e] + s
    else
      var rest := Insert(e, s[1..]);
      assert rest[0].log.timestamp <= s[0].log.timestamp;
      assert s == [s[0]] + s[1..];
      [s[0]] + rest
  }

  /** `order_by(EmailLog.timestamp.desc())`: the same rows, newest first. */
  function SortNewestFirst(s: seq<Entry>): (r: seq<Entry>)
    ensures NewestFirst(r)
    ensures multiset(r) == multiset(s)
    decreases |s|
  {
    if |s| == 0 then []
    else
      assert s == [s[0]] + s[1..];
      Insert(s[0], SortNewestFirst(s[1..]))
  }

  /** In a newest-first sequence, nothing after position `k` is newer than
      anything before it. */
  lemma TailNoNewer(sorted: seq<Entry>, k: nat)
    requires NewestFirst(sorted) && k <= |sorted|
    ensures forall e :: e in multiset(sorted[k..]) ==>
              forall j :: 0 <= j < k ==> e.log.timestamp <= sorted[j].log.timestamp
  {
    forall e | e in multiset(sorted[k..])
      ensures forall j :: 0 <= j < k ==> e.log.timestamp <= sorted[j].log.timestamp
    {
      assert e in sorted[k..];
      var m :| 0 <= m < |sorted[k..]| && sorted[k..][m] == e;
      assert sorted[k + m] == e;
    }
  }

  /** Cutting a sequence in two splits its multiset. */
  lemma PrefixRemainder(sorted: seq<Entry>, k: nat)
    requires k <= |sorted|
    ensures multiset(sorted) - multiset(sorted[..k]) == multiset(sorted[k..])
    ensures multiset(sorted[..k]) <= multiset(sorted)
  {
    assert sorted == sorted[..k] + sorted[k..];
  }

  /** `e` is no newer than any entry of `page`. */
  predicate NoNewerThanAll(e: Entry, page: seq<Entry>) {
    forall j :: 0 <= j < |page| ==> e.log.timestamp <= page[j].log.timestamp
  }

  /** The first `k` entries of a newest-first sequence are newest first, and
      what is cut off is no newer than any of them. */
  lemma PrefixIsNewest(sorted: seq<Entry>, k: nat)
    requires NewestFirst(sorted) && k <= |sorted|
    ensures NewestFirst(sorted[..k])
    ensures multiset(sorted[..k]) <= multiset(sorted)
    ensures forall e :: e in multiset(sorted) - multiset(sorted[..k]) ==> NoNewerThanAll(e, sorted[..k])
  {
    PrefixRemainder(sorted, k);
    TailNoNewer(sorted, k);
    var page := sorted[..k];
    assert forall j :: 0 <= j < k ==> page[j] == sorted[j];
  }

  /** `.order_by(timestamp.desc()).limit(n)`: the `n` newest rows, newest
      first; every row left out is no newer than any row returned. */
  function Newest(s: seq<Entry>, n: nat): (page: seq<Entry>)
    ensures |page| == if |s| < n then |s| else n
    ensures NewestFirst(page)
    ensures multiset(page) <= multiset(s)
    ensures forall e :: e in multiset(s) - multiset(page) ==> NoNewerThanAll(e, page)
  {
    var sorted := SortNewestFirst(s);
    var k := if |sorted| < n then |sorted| else n;
    PrefixIsNewest(sorted, k);
    sorted[..k]
  }

  /** One entry of the log listing. */
  datatype LogView = LogView(id: int, recipient: string, subject: string, status: string,
                             timestamp: int, keyName: string)

  function LogViewOf(e: Entry): LogView {
    LogView(e.log.id, e.log.recipient, e.log.subject, e.log.status.Name(), e.log.timestamp, e.key.name)
  }

  /** `GET /api/v1/emails`: the caller's 100 newest rows, newest first. */
  function GetEmails(store: Store, caller: int): (views: seq<LogView>)
    ensures |views| <= PageLimit
    ensures forall i, j :: 0 <= i < j < |views| ==> views[i].timestamp >= views[j].timestamp
  {
    var page := Newest(CallerEntries(store.keys, store.logs, caller), PageLimit);
    seq(|page|, i requires 0 <= i < |page| => LogViewOf(page[i]))
  }

  /** Every row listed was sent with one of the caller's keys, and the listing
      holds the caller's newest rows: a row of the caller's left out is no
      newer than any row listed. */
  lemma ListingIsCallersNewest(store: Store, caller: int)
    ensures var entries := CallerEntries(store.keys, store.logs, caller);
            var page := Newest(entries, PageLimit);
            && GetEmails(store, caller) == seq(|page|, i requires 0 <= i < |page| => LogViewOf(page[i]))
            && (forall i :: 0 <= i < |page| ==> page[i] in entries)
            && |page| == (if |entries| < PageLimit then |entries| else PageLimit)
            && forall e :: e in multiset(entries) - multiset(page) ==> NoNewerThanAll(e, page)
  {
    var entries := CallerEntries(store.keys, store.logs, caller);
    var page := Newest(entries, PageLimit);
    forall i | 0 <= i < |page| ensures page[i] in entries {
      assert page[i] in multiset(page);
    }
  }

  /** The status column of a sequence of entries. */
  function Statuses(s: seq<Entry>): (r: seq<Status>)
    ensures |r| == |s| && forall i :: 0 <= i < |s| ==> r[i] == s[i].log.status
  {
    seq(|s|, i requires 0 <= i < |s| => s[i].log.status)
  }

  /** The number of entries whose row has status `st`: the multiplicity of
      `st` in the status column. */
  function CountStatus(s: seq<Entry>, st: Status): (n: nat)
    ensures n <= |s|
    ensures n == multiset(Statuses(s))[st]
    decreases |s|
  {
    if |s| == 0 then 0
    else
      assert Statuses(s) == [s[0].log.status] + Statuses(s[1..]);
      (if s[0].log.status == st then 1 else 0) + CountStatus(s[1..], st)
  }

  /** How many rows of the log belong to `caller` and have status `st`,
      counted on the log itself rather than on the join. */
  function OwnedRowsWith(keys: seq<ApiKey>, logs: seq<EmailLog>, caller: int, st: Status): nat
    decreases |logs|
  {
    if |logs| == 0 then 0
    else (if OwnedBy(keys, logs[0], caller) && logs[0].status == st then 1 else 0)
         + OwnedRowsWith(keys, logs[1..], caller, st)
  }

  /** Counting a status on the caller's join counts the caller's rows with
      that status in the log. */
  lemma {:induction false} CountStatusOfJoin(keys: seq<ApiKey>, logs: seq<EmailLog>, caller: int, st: Status)
    ensures CountStatus(CallerEntries(keys, logs, caller), st) == OwnedRowsWith(keys, logs, caller, st)
    decreases |logs|
  {
    if |logs| > 0 {
      CountStatusOfJoin(keys, logs[1..], caller, st);
      var rest := CallerEntries(keys, logs[1..], caller);
      if OwnedBy(keys, logs[0], caller) {
        var head := Entry(logs[0], FindKeyById(keys, logs[0].apiKeyId).value);
        assert ([head] + rest)[1..] == rest;
      }
    }
  }

  /** With only terminal rows stored, every row is counted as sent or as
      failed, never both and never neither. */
  lemma {:induction false} SentPlusFailedIsTotal(s: seq<Entry>)
    requires forall i :: 0 <= i < |s| ==> WellFormedLog(s[i].log)
    ensures CountStatus(s, Sent) + CountStatus(s, Failed) == |s|
    decreases |s|
  {
    if |s| > 0 {
      SentPlusFailedIsTotal(s[1..]);
    }
  }

  datatype Metrics = Metrics(total: nat, sent: nat, failed: nat, activeKeys: nat)

  /** `GET /api/v1/metrics`, without the success-rate percentage: the total
      counts the caller's rows of the join, the sent and failed counters the
      multiplicity of each status among them, and the key counter the keys the
      key listing shows. */
  function GetMetrics(store: Store, caller: int): (m: Metrics)
    ensures var entries := CallerEntries(store.keys, store.logs, caller);
            && m.total == |entries|
            && m.sent == multiset(Statuses(entries))[Sent]
            && m.failed == multiset(Statuses(entries))[Failed]
    ensures m.sent <= m.total && m.failed <= m.total
    ensures m.activeKeys == |ListKeys(store, caller)|
  {
    var entries := CallerEntries(store.keys, store.logs, caller);
    Metrics(|entries|, CountStatus(entries, Sent), CountStatus(entries, Failed),
            |ActiveKeysOf(store.keys, caller)|)
  }

  /** In a valid store the dashboard's counters add up: sent plus failed is
      the total, since no pending row is ever stored. */
  lemma MetricsAddUp(store: Store, caller: int)
    requires Valid(store)
    ensures var m := GetMetrics(store, caller); m.sent + m.failed == m.total
  {
    var entries := CallerEntries(store.keys, store.logs, caller);
    forall i | 0 <= i < |entries| ensures WellFormedLog(entries[i].log) {
      var j :| 0 <= j < |store.logs| && store.logs[j] == entries[i].log;
    }
    SentPlusFailedIsTotal(entries);
  }

  /** The dashboard's sent and failed counters count the caller's rows with
      that status in the log. */
  lemma MetricsCountOwnedRows(store: Store, caller: int)
    ensures GetMetrics(store, caller).sent == OwnedRowsWith(store.keys, store.logs, caller, Sent)
    ensures GetMetrics(store, caller).failed == OwnedRowsWith(store.keys, store.logs, caller, Failed)
  {
    CountStatusOfJoin(store.keys, store.logs, caller, Sent);
    CountStatusOfJoin(store.keys, store.logs, caller, Failed);
  }
}

=== FILE: http.dfy ===
/** The JSON request payload and the HTTP responses the handlers produce. */
module Http {
  import opened Options

  /** A decoded JSON object whose values are strings or `null` (`None`). */
  type Json = map<string, Option<string>>

  /** `data.get(k)`: the string under `k`, or `None` when `k` is absent or null. */
  function Get(data: Json, k: string): Option<string> {
    if k in data then data[k] else None
  }

  /** Python truthiness of an optional string: present and non-empty. */
  predicate Truthy(v: Option<string>) {
    v.Some? && v.value != ""
  }

  /** The JSON bodies the handlers return. `ServerErrorPage` stands for the
      framework's own page for an exception the handler does not catch. */
  datatype Body =
    | ErrorBody(error: string)
    | DebugErrorBody(error: string, debug: string)
    | SentBody(id: int, message: string)
    | MessageBody(message: string)
    | KeyCreatedBody(id: int, name: string, key: string, created: int)
    | ServerErrorPage

  datatype Response = Response(status: int, body: Body)
}

=== FILE: keys.dfy ===
/** Key management for a logged-in account (`/api/v1/keys`): create a key,
    list the caller's active keys with masked tokens, and revoke a key by
    clearing its active flag. The caller is the id of the logged-in user. */
module Keys {
  import opened Options
  import opened PyText
  import opened Models
  import opened Http
  import opened Auth

  const MaskPrefix: string := "rk_live_"
  const KeyNotFound: string := "Key not found"
  const KeyRevoked: string := "Key revoked"

  predicate TokenInUse(keys: seq<ApiKey>, token: string) {
    exists i :: 0 <= i < |keys| && keys[i].token == token
  }

  /** The response and the store after a key-management request. */
  datatype KeyOutcome = KeyOutcome(response: Response, store: Store)

  /** `POST /api/v1/keys`. The key's name is the payload's `name` or, when
      absent, `defaultName` (the "Key <date>" label built from the clock);
      `token` is the freshly generated secret and `now` the creation time. A
      null name breaks the NOT NULL `name` column and a token already in use
      breaks the unique `key` column: both end in an uncaught exception. */
  function CreateKey(store: Store, caller: int, payload: Option<Json>, defaultName: string,
                     token: string, now: int): (out: KeyOutcome)
    ensures out.store.users == store.users && out.store.logs == store.logs
    ensures out.response.status == 201 || out.response == Response(500, ServerErrorPage)
    ensures out.response.status == 201 <==>
              !TokenInUse(store.keys, token)
              && (payload.None? || "name" !in payload.value || payload.value["name"].Some?)
    ensures out.response.status != 201 ==> out.store == store
    ensures out.response.status == 201 ==>
              && |out.store.keys| == |store.keys| + 1
              && out.store.keys[..|store.keys|] == store.keys
              && var k := out.store.keys[|store.keys|];
              && k.isActive && k.userId == caller && k.token == token && k.createdAt == now
              && k.id == NextId(KeyIds(store.keys)) && k.id !in KeyIds(store.keys)
              && k.name == (if payload.Some? && "name" in payload.value then payload.value["name"].value
                            else defaultName)
              && out.response.body == KeyCreatedBody(k.id, k.name, token, now)
  {
    var data := if payload.None? then map[] else payload.value;
    var name := if "name" in data then data["name"] else Some(defaultName);
    if name.None? || TokenInUse(store.keys, token) then
      KeyOutcome(Response(500, ServerErrorPage), store)
    else
      var key := ApiKey(NextId(KeyIds(store.keys)), token, name.value, now, true, caller);
      KeyOutcome(Response(201, KeyCreatedBody(key.id, key.name, key.token, key.createdAt)),
                 store.(keys := store.keys + [key]))
  }

  /** Creating a key for an existing account keeps the store valid. */
  lemma CreateKeyPreservesValid(store: Store, caller: int, payload: Option<Json>, defaultName: string,
                                token: string, now: int)
    requires Valid(store)
    requires caller in UserIds(store.users)
    ensures Valid(CreateKey(store, caller, payload, defaultName, token, now).store)
  {
    var out := CreateKey(store, caller, payload, defaultName, token, now);
    if out.response.status == 201 {
      var k := out.store.keys[|store.keys|];
      assert out.store.keys == store.keys + [k];
      AppendKeyPreservesValid(store, k);
    }
  }

  /** Among keys whose tokens differ from `token`, a key appended with that
      token, active, is the one it resolves to. */
  lemma {:induction false} FindAppendedKey(keys: seq<ApiKey>, k: ApiKey, token: string)
    requires forall i :: 0 <= i < |keys| ==> keys[i].token != token
    requires Resolves(k, token)
    ensures FindActiveKey(keys + [k], token) == Some(k)
    decreases |keys|
  {
    if |keys| > 0 {
      assert (keys + [k])[1..] == keys[1..] + [k];
      FindAppendedKey(keys[1..], k, token);
    }
  }

  /** A new key can be used at once: a bearer header carrying its token (a
      generated token has no spaces) authenticates as that key. */
  lemma CreatedKeyAuthenticates(store: Store, caller: int, payload: Option<Json>, defaultName: string,
                                token: string, now: int)
    requires Valid(store)
    requires ' ' !in token
    requires CreateKey(store, caller, payload, defaultName, token, now).response.status == 201
    ensures var keys := CreateKey(store, caller, payload, defaultName, token, now).store.keys;
            Authenticate(keys, Some(BearerPrefix + token)) == Authorized(keys[|keys| - 1])
  {
    var keys := CreateKey(store, caller, payload, defaultName, token, now).store.keys;
    var header := BearerPrefix + token;
    assert header[|BearerPrefix|..] == token;
    assert BearerToken(header) == token;
    assert StartsWith(header, BearerPrefix);
    assert keys == store.keys + [keys[|keys| - 1]];
    FindAppendedKey(store.keys, keys[|keys| - 1], token);
  }

  /** The masked form of a token shown in listings: `rk_live_` followed by the
      first four characters of the token and `...`. */
  function MaskToken(token: string): (m: string)
    ensures |m| == |MaskPrefix| + (if |token| < 4 then |token| else 4) + 3
    ensures StartsWith(m, MaskPrefix)
    ensures m[|m| - 3..] == "..."
    ensures StartsWith(token, m[|MaskPrefix|..|m| - 3])
  {
    if token != "" then
      MaskPrefix + token[..if |token| < 4 then |token| else 4] + "..."
    else
      "rk_live_..."
  }

  /** The mask reveals a short prefix only: two tokens that agree on their
      first four characters look the same. */
  lemma MaskDependsOnPrefixOnly(a: string, b: string)
    requires |a| >= 4 && |b| >= 4 && a[..4] == b[..4]
    ensures MaskToken(a) == MaskToken(b)
  {
  }

  /** The caller's active keys, in table order. */
  function ActiveKeysOf(keys: seq<ApiKey>, caller: int): (r: seq<ApiKey>)
    ensures forall i :: 0 <= i < |r| ==> r[i] in keys && r[i].userId == caller && r[i].isActive
    ensures forall i :: 0 <= i < |keys| && keys[i].userId == caller && keys[i].isActive ==> keys[i] in r
    ensures |r| <= |keys|
    decreases |keys|
  {
    if |keys| == 0 then []
    else
      var rest := ActiveKeysOf(keys[1..], caller);
      assert forall i :: 1 <= i < |keys| ==> keys[i] == keys[1..][i - 1];
      if keys[0].userId == caller && keys[0].isActive then [keys[0]] + rest else rest
  }

  /** The caller's active keys keep each such key exactly as often as the
      table holds it, and nothing else. */
  lemma {:induction false} ActiveKeysFilter(keys: seq<ApiKey>, caller: int)
    ensures forall k :: multiset(ActiveKeysOf(keys, caller))[k] ==
              if k.userId == caller && k.isActive then multiset(keys)[k] else 0
    decreases |keys|
  {
    if |keys| > 0 {
      ActiveKeysFilter(keys[1..], caller);
      assert keys == [keys[0]] + keys[1..];
    }
  }

  /** Key ids strictly increase along the sequence. */
  predicate IdsAscending(ks: seq<ApiKey>) {
    forall i, j :: 0 <= i < j < |ks| ==> ks[i].id < ks[j].id
  }

  /** The tail of an ascending sequence is ascending and above its head. */
  lemma AscendingTail(keys: seq<ApiKey>)
    requires |keys| > 0 && IdsAscending(keys)
    ensures IdsAscending(keys[1..])
    ensures forall x :: x in keys[1..] ==> keys[0].id < x.id
  {
    assert forall i :: 0 <= i < |keys| - 1 ==> keys[1..][i] == keys[i + 1];
  }

  /** A key below every key of an ascending sequence extends it at the front. */
  lemma AscendingCons(k: ApiKey, rest: seq<ApiKey>)
    requires IdsAscending(rest)
    requires forall i :: 0 <= i < |rest| ==> k.id < rest[i].id
    ensures IdsAscending([k] + rest)
  {
    var r := [k] + rest;
    forall i, j | 0 <= i < j < |r| ensures r[i].id < r[j].id {
      assert r[j] == rest[j - 1];
      if i > 0 {
        assert r[i] == rest[i - 1];
      }
    }
  }

  /** Filtering keeps table order: in a table whose ids increase, the
      caller's active keys have increasing ids too. */
  lemma {:induction false} ActiveKeysInOrder(keys: seq<ApiKey>, caller: int)
    requires IdsAscending(keys)
    ensures IdsAscending(ActiveKeysOf(keys, caller))
    decreases |keys|
  {
    if |keys| > 0 {
      var rest := ActiveKeysOf(keys[1..], caller);
      AscendingTail(keys);
      ActiveKeysInOrder(keys[1..], caller);
      if keys[0].userId == caller && keys[0].isActive {
        assert forall i :: 0 <= i < |rest| ==> rest[i] in keys[1..];
        AscendingCons(keys[0], rest);
      }
    }
  }

  /** The newest timestamp among the rows sent with key `keyId`, if any. */
  function LastUsed(logs: seq<EmailLog>, keyId: int): (r: Option<int>)
    ensures r.None? <==> forall i :: 0 <= i < |logs| ==> logs[i].apiKeyId != keyId
    ensures r.Some? ==> (exists i :: 0 <= i < |logs| && logs[i].apiKeyId == keyId && logs[i].timestamp == r.value)
                        && forall i :: 0 <= i < |logs| && logs[i].apiKeyId == keyId ==> logs[i].timestamp <= r.value
    decreases |logs|
  {
    if |logs| == 0 then None
    else
      var rest := LastUsed(logs[1..], keyId);
      assert forall i :: 1 <= i < |logs| ==> logs[i] == logs[1..][i - 1];
      if logs[0].apiKeyId != keyId then rest
      else if rest.Some? && rest.value > logs[0].timestamp then rest
      else Some(logs[0].timestamp)
  }

  /** One entry of the key listing. */
  datatype KeyView = KeyView(id: int, name: string, keyToken: string, createdAt: int, lastUsed: Option<int>)

  function KeyViewOf(k: ApiKey, logs: seq<EmailLog>): KeyView {
    KeyView(k.id, k.name, MaskToken(k.token), k.createdAt, LastUsed(logs, k.id))
  }

  /** `GET /api/v1/keys`: the caller's active keys, each with its token
      masked and the time it was last used. */
  function ListKeys(store: Store, caller: int): (views: seq<KeyView>)
    ensures |views| == |ActiveKeysOf(store.keys, caller)|
    ensures forall i :: 0 <= i < |views| ==> views[i] == KeyViewOf(ActiveKeysOf(store.keys, caller)[i], store.logs)
  {
    var keys := ActiveKeysOf(store.keys, caller);
    seq(|keys|, i requires 0 <= i < |keys| => KeyViewOf(keys[i], store.logs))
  }

  /** `v` is the masked view of an active key of the caller. */
  predicate ShowsActiveKey(store: Store, caller: int, v: KeyView) {
    exists k :: k in store.keys && k.userId == caller && k.isActive && v == KeyViewOf(k, store.logs)
  }

  /** The key listing shows every active key of the caller and nothing else,
      each as its masked view. */
  lemma ListKeysShowsActiveKeys(store: Store, caller: int)
    ensures forall v :: v in ListKeys(store, caller) ==> ShowsActiveKey(store, caller, v)
    ensures forall k :: k in store.keys && k.userId == caller && k.isActive ==>
              KeyViewOf(k, store.logs) in ListKeys(store, caller)
  {
    var active := ActiveKeysOf(store.keys, caller);
    var views := ListKeys(store, caller);
    forall v | v in views ensures ShowsActiveKey(store, caller, v) {
      var i :| 0 <= i < |views| && views[i] == v;
      var k := active[i];
      assert k in store.keys && k.userId == caller && k.isActive;
      assert v == KeyViewOf(k, store.logs);
    }
    forall k | k in store.keys && k.userId == caller && k.isActive
      ensures KeyViewOf(k, store.logs) in views
    {
      var i :| 0 <= i < |store.keys| && store.keys[i] == k;
      var j :| 0 <= j < |active| && active[j] == k;
      assert views[j] == KeyViewOf(k, store.logs);
    }
  }

  /** In a table whose key ids increase, the listing shows each key once, in
      table order. */
  lemma ListKeysInOrder(store: Store, caller: int)
    requires IdsIncreasing(KeyIds(store.keys))
    ensures forall i, j :: 0 <= i < j < |ListKeys(store, caller)| ==>
              ListKeys(store, caller)[i].id < ListKeys(store, caller)[j].id
  {
    var active := ActiveKeysOf(store.keys, caller);
    var views := ListKeys(store, caller);
    assert IdsAscending(store.keys) by {
      assert forall i :: 0 <= i < |store.keys| ==> KeyIds(store.keys)[i] == store.keys[i].id;
    }
    ActiveKeysInOrder(store.keys, caller);
    assert forall i :: 0 <= i < |views| ==> views[i].id == active[i].id;
  }

  /** The position of the key with id `keyId` owned by `caller`. */
  function FindOwnedKey(keys: seq<ApiKey>, keyId: int, caller: int): (r: Option<nat>)
    ensures r.None? <==> forall i :: 0 <= i < |keys| ==> !(keys[i].id == keyId && keys[i].userId == caller)
    ensures r.Some? ==> r.value < |keys| && keys[r.value].id == keyId && keys[r.value].userId == caller
    decreases |keys|
  {
    if |keys| == 0 then None
    else if keys[0].id == keyId && keys[0].userId == caller then Some(0)
    else
      var rest := FindOwnedKey(keys[1..], keyId, caller);
      assert forall i :: 1 <= i < |keys| ==> keys[i] == keys[1..][i - 1];
      if rest.None? then None else Some(rest.value + 1)
  }

  /** `DELETE /api/v1/keys/<id>`: a key that does not exist or belongs to
      someone else is 404; otherwise only its active flag is cleared. */
  function RevokeKey(store: Store, caller: int, keyId: int): (out: KeyOutcome)
    ensures out.store.users == store.users && out.store.logs == store.logs
    ensures |out.store.keys| == |store.keys|
    ensures out.response.status == 200 <==>
              exists i :: 0 <= i < |store.keys| && store.keys[i].id == keyId && store.keys[i].userId == caller
    ensures out.response.status != 200 ==> out.response == Response(404, ErrorBody(KeyNotFound)) && out.store == store
    ensures out.response.status == 200 ==>
              out.response == Response(200, MessageBody(KeyRevoked))
              && (exists i :: 0 <= i < |store.keys| && store.keys[i].id == keyId && store.keys[i].userId == caller
                                && out.store.keys == store.keys[i := store.keys[i].(isActive := false)])
  {
    match FindOwnedKey(store.keys, keyId, caller)
    case None => KeyOutcome(Response(404, ErrorBody(KeyNotFound)), store)
    case Some(i) =>
      KeyOutcome(Response(200, MessageBody(KeyRevoked)),
                 store.(keys := store.keys[i := store.keys[i].(isActive := false)]))
  }

  /** Looking a key up by id and owner does not depend on active flags. */
  lemma {:induction false} FindOwnedKeyIgnoresActive(a: seq<ApiKey>, b: seq<ApiKey>, keyId: int, caller: int)
    requires |a| == |b|
    requires forall i :: 0 <= i < |a| ==> a[i].id == b[i].id && a[i].userId == b[i].userId
    ensures FindOwnedKey(a, keyId, caller) == FindOwnedKey(b, keyId, caller)
    decreases |a|
  {
    if |a| > 0 {
      FindOwnedKeyIgnoresActive(a[1..], b[1..], keyId, caller);
    }
  }

  /** Revoking is repeatable: a second revoke of the same key answers 200
      again and changes nothing more. */
  lemma RevokeIdempotent(store: Store, caller: int, keyId: int)
    requires RevokeKey(store, caller, keyId).response.status == 200
    ensures var once := RevokeKey(store, caller, keyId);
            var twice := RevokeKey(once.store, caller, keyId);
            twice.response.status == 200 && twice.store == once.store
  {
    var i := FindOwnedKey(store.keys, keyId, caller).value;
    var once := RevokeKey(store, caller, keyId);
    assert once.store.keys == store.keys[i := store.keys[i].(isActive := false)];
    FindOwnedKeyIgnoresActive(store.keys, once.store.keys, keyId, caller);
    assert once.store.keys[i := once.store.keys[i].(isActive := false)] == once.store.keys;
  }

  /** Revoking keeps the store valid. */
  lemma RevokePreservesValid(store: Store, caller: int, keyId: int)
    requires Valid(store)
    ensures Valid(RevokeKey(store, caller, keyId).store)
  {
    var out := RevokeKey(store, caller, keyId);
    assert KeyIds(out.store.keys) == KeyIds(store.keys);
    assert forall i :: 0 <= i < |store.keys| ==>
                         out.store.keys[i].token == store.keys[i].token && out.store.keys[i].userId == store.keys[i].userId;
  }

  /** After a successful revoke, the key's token no longer authenticates, with
      any header. The row itself is kept, so its logs remain attributed. */
  lemma RevokedKeyIsRejected(store: Store, caller: int, keyId: int, header: Option<string>)
    requires Valid(store)
    requires RevokeKey(store, caller, keyId).response.status == 200
    requires WellFormedHeader(header)
    requires exists i :: 0 <= i < |store.keys| && store.keys[i].id == keyId && store.keys[i].token == BearerToken(header.value)
    ensures Authenticate(RevokeKey(store, caller, keyId).store.keys, header).Rejected?
    ensures KeyIds(RevokeKey(store, caller, keyId).store.keys) == KeyIds(store.keys)
  {
    var out := RevokeKey(store, caller, keyId);
    var token := BearerToken(header.value);
    var i :| 0 <= i < |store.keys| && store.keys[i].id == keyId && store.keys[i].userId == caller
             && out.store.keys == store.keys[i := store.keys[i].(isActive := false)];
    var j :| 0 <= j < |store.keys| && store.keys[j].id == keyId && store.keys[j].token == token;
    assert KeyIds(store.keys)[i] == KeyIds(store.keys)[j];
    assert i == j;
    forall m | 0 <= m < |out.store.keys| ensures !Resolves(out.store.keys[m], token) {
      if m != i {
        assert out.store.keys[m] == store.keys[m];
        assert store.keys[m].token != store.keys[i].token;
      }
    }
    assert KeyIds(out.store.keys) == KeyIds(store.keys);
  }
}

=== FILE: lifecycle.dfy ===
/** The store over a run of requests: every state-changing endpoint as one
    step, and what stays true of a revoked key however many steps follow. */
module Lifecycle {
  import opened Options
  import opened Models
  import opened Http
  import opened Auth
  import opened Smtp
  import opened Send
  import opened Keys
  import opened Accounts

  /** One request that may change the store, with everything it reads from
      outside (clock, generated token, environment, upstream server). Login
      and the listings only read the store and are not steps. */
  datatype Request =
    | CreateRequest(caller: int, payload: Option<Json>, defaultName: string, token: string, now: int)
    | RevokeRequest(caller: int, keyId: int)
    | SendRequest(header: Option<string>, payload: Option<Json>, env: Env, t: Transport, now: int)
    | SignupRequest(email: string, passwordHash: string)

  function Step(store: Store, r: Request): Store {
    match r
    case CreateRequest(caller, payload, defaultName, token, now) =>
      CreateKey(store, caller, payload, defaultName, token, now).store
    case RevokeRequest(caller, keyId) => RevokeKey(store, caller, keyId).store
    case SendRequest(header, payload, env, t, now) => SendEmail(store, header, payload, env, t, now).store
    case SignupRequest(email, passwordHash) => Signup(store, email, passwordHash).store
  }

  /** The store after the requests `rs`, in order. */
  function Run(store: Store, rs: seq<Request>): Store
    decreases |rs|
  {
    if |rs| == 0 then store else Run(Step(store, rs[0]), rs[1..])
  }

  /** `token` belongs to a key, and every key carrying it is inactive. */
  predicate Revoked(keys: seq<ApiKey>, token: string) {
    TokenInUse(keys, token)
    && forall i :: 0 <= i < |keys| && keys[i].token == token ==> !keys[i].isActive
  }

  /** A revoked token does not authenticate. */
  lemma RevokedRejects(keys: seq<ApiKey>, header: Option<string>)
    requires WellFormedHeader(header) && Revoked(keys, BearerToken(header.value))
    ensures Authenticate(keys, header) == Rejected("Invalid API Key")
  {
  }

  /** A successful revoke leaves the revoked key's token revoked: tokens are
      unique, so no other key carries it. */
  lemma RevokeMakesRevoked(store: Store, caller: int, keyId: int, token: string)
    requires Valid(store)
    requires exists i :: 0 <= i < |store.keys| && store.keys[i].id == keyId && store.keys[i].userId == caller
                         && store.keys[i].token == token
    ensures RevokeKey(store, caller, keyId).response.status == 200
    ensures Revoked(RevokeKey(store, caller, keyId).store.keys, token)
  {
    var out := RevokeKey(store, caller, keyId);
    var i :| 0 <= i < |store.keys| && store.keys[i].id == keyId && store.keys[i].userId == caller
             && out.store.keys == store.keys[i := store.keys[i].(isActive := false)];
    var j :| 0 <= j < |store.keys| && store.keys[j].id == keyId && store.keys[j].userId == caller
             && store.keys[j].token == token;
    assert KeyIds(store.keys)[i] == KeyIds(store.keys)[j];
    assert i == j;
    assert out.store.keys[i].token == token;
    forall m | 0 <= m < |out.store.keys| && out.store.keys[m].token == token
      ensures m == i
    {
      assert store.keys[m].token == store.keys[i].token;
    }
  }

  /** No request makes a revoked token active again: a revoke only clears
      flags, a new key must carry an unused token, and sends and signups leave
      the key table alone. */
  lemma StepKeepsRevoked(store: Store, r: Request, token: string)
    requires Revoked(store.keys, token)
    ensures Revoked(Step(store, r).keys, token)
  {
    match r
    case CreateRequest(caller, payload, defaultName, t, now) =>
      var out := CreateKey(store, caller, payload, defaultName, t, now);
      if out.response.status == 201 {
        var keys := out.store.keys;
        assert t != token;
        forall m | 0 <= m < |keys| && keys[m].token == token ensures !keys[m].isActive {
          assert m < |store.keys|;
          assert keys[m] == keys[..|store.keys|][m];
        }
        var w :| 0 <= w < |store.keys| && store.keys[w].token == token;
        assert keys[w] == keys[..|store.keys|][w];
      }
    case RevokeRequest(caller, keyId) =>
      var out := RevokeKey(store, caller, keyId);
      if out.response.status == 200 {
        var i :| 0 <= i < |store.keys| && store.keys[i].id == keyId && store.keys[i].userId == caller
                 && out.store.keys == store.keys[i := store.keys[i].(isActive := false)];
        var w :| 0 <= w < |store.keys| && store.keys[w].token == token;
        assert out.store.keys[w].token == token;
      }
    case SendRequest(header, payload, env, t, now) =>
    case SignupRequest(email, passwordHash) =>
  }

  /** A revoked token stays revoked over any run of later requests. */
  lemma {:induction false} RunKeepsRevoked(store: Store, rs: seq<Request>, token: string)
    requires Revoked(store.keys, token)
    ensures Revoked(Run(store, rs).keys, token)
    decreases |rs|
  {
    if |rs| > 0 {
      StepKeepsRevoked(store, rs[0], token);
      RunKeepsRevoked(Step(store, rs[0]), rs[1..], token);
    }
  }

  /** Once a key is revoked its token never authenticates again, whatever
      keys are created or revoked, mail sent or accounts registered after. */
  lemma RevokedKeyNeverAuthenticates(store: Store, caller: int, keyId: int, rs: seq<Request>,
                                     header: Option<string>)
    requires Valid(store)
    requires WellFormedHeader(header)
    requires exists i :: 0 <= i < |store.keys| && store.keys[i].id == keyId && store.keys[i].userId == caller
                         && store.keys[i].token == BearerToken(header.value)
    ensures Authenticate(Run(RevokeKey(store, caller, keyId).store, rs).keys, header) == Rejected("Invalid API Key")
  {
    var token := BearerToken(header.value);
    RevokeMakesRevoked(store, caller, keyId, token);
    RunKeepsRevoked(RevokeKey(store, caller, keyId).store, rs, token);
    RevokedRejects(Run(RevokeKey(store, caller, keyId).store, rs).keys, header);
  }
}

=== FILE: models.dfy ===
/** The three tables of the service: accounts (`User`), API keys (`ApiKey`)
    and the delivery log (`EmailLog`), held together in a `Store`, with the
    column defaults and the uniqueness and reference constraints of the schema
    stated as the invariant `Valid`. */
module Models {
  import opened Options

  /** An account. The password is kept only as an opaque hash. */
  datatype User = User(id: int, email: string, passwordHash: string)

  /** An API key: `token` is the secret a client presents as a bearer token;
      revocation clears `isActive` and never deletes the row. */
  datatype ApiKey = ApiKey(
    id: int,
    token: string,
    name: string,
    createdAt: int,
    isActive: bool,
    userId: int)

  /** Delivery status. A log entry is built as `Pending` but only ever stored
      with a terminal status. */
  datatype Status = Pending | Sent | Failed {

    /** The text stored in the `status` column. */
    function Name(): string {
      match this
      case Pending => "pending"
      case Sent => "sent"
      case Failed => "failed"
    }

    predicate IsTerminal() {
      Sent? || Failed?
    }
  }

  /** One attempted send, attributed to the key that authorised it. */
  datatype EmailLog = EmailLog(
    id: int,
    recipient: string,
    subject: string,
    status: Status,
    timestamp: int,
    apiKeyId: int,
    errorMessage: Option<string>)

  datatype Store = Store(users: seq<User>, keys: seq<ApiKey>, logs: seq<EmailLog>)

  /** The id column of a table, in row order. */
  function Column<T>(rows: seq<T>, id: T -> int): (ids: seq<int>)
    ensures |ids| == |rows| && forall i :: 0 <= i < |rows| ==> ids[i] == id(rows[i])
  {
    seq(|rows|, i requires 0 <= i < |rows| => id(rows[i]))
  }

  function UserIds(users: seq<User>): seq<int> {
    Column(users, (u: User) => u.id)
  }

  function KeyIds(keys: seq<ApiKey>): seq<int> {
    Column(keys, (k: ApiKey) => k.id)
  }

  function LogIds(logs: seq<EmailLog>): seq<int> {
    Column(logs, (l: EmailLog) => l.id)
  }

  /** The largest id in a non-empty column. */
  function MaxId(ids: seq<int>): (m: int)
    requires |ids| > 0
    ensures m in ids
    ensures forall k :: 0 <= k < |ids| ==> ids[k] <= m
    decreases |ids|
  {
    if |ids| == 1 then ids[0]
    else
      var rest := MaxId(ids[1..]);
      if ids[0] >= rest then ids[0] else rest
  }

  /** The id SQLite gives the next row of an integer-primary-key table: one
      more than the largest id present, or 1 for an empty table. */
  function NextId(ids: seq<int>): (n: int)
    ensures forall k :: 0 <= k < |ids| ==> ids[k] < n
    ensures |ids| == 0 ==> n == 1
    ensures |ids| > 0 ==> n - 1 in ids
  {
    if |ids| == 0 then 1 else MaxId(ids) + 1
  }

  /** Primary keys: positive and strictly increasing in insertion order
      (so in particular unique). */
  predicate IdsIncreasing(ids: seq<int>) {
    (|ids| > 0 ==> ids[0] > 0)
    && forall i, j :: 0 <= i < j < |ids| ==> ids[i] < ids[j]
  }

  /** `User.email` is unique. */
  predicate EmailsUnique(users: seq<User>) {
    forall i, j :: 0 <= i < j < |users| ==> users[i].email != users[j].email
  }

  /** `ApiKey.key` is unique. */
  predicate TokensUnique(keys: seq<ApiKey>) {
    forall i, j :: 0 <= i < j < |keys| ==> keys[i].token != keys[j].token
  }

  /** A stored log entry: terminal status, and an error message exactly on
      the failed path. */
  predicate WellFormedLog(l: EmailLog) {
    l.status.IsTerminal() && (l.errorMessage.Some? <==> l.status == Failed)
  }

  /** The schema's constraints together with what the handlers maintain. */
  predicate Valid(s: Store) {
    && IdsIncreasing(UserIds(s.users))
    && EmailsUnique(s.users)
    && IdsIncreasing(KeyIds(s.keys))
    && TokensUnique(s.keys)
    && (forall i :: 0 <= i < |s.keys| ==> s.keys[i].userId in UserIds(s.users))
    && IdsIncreasing(LogIds(s.logs))
    && (forall i :: 0 <= i < |s.logs| ==> s.logs[i].apiKeyId in KeyIds(s.keys))
    && (forall i :: 0 <= i < |s.logs| ==> WellFormedLog(s.logs[i]))
  }

  /** Appending a row with the next id keeps a primary-key column increasing. */
  lemma AppendNextId(ids: seq<int>)
    requires IdsIncreasing(ids)
    ensures IdsIncreasing(ids + [NextId(ids)])
  {
    var n := NextId(ids);
    if |ids| > 0 {
      assert ids[0] > 0 && ids[0] < n;
    }
  }

  /** Appending a well-formed row with the next id, attributed to an existing
      key, keeps the store valid. */
  lemma AppendLogPreservesValid(s: Store, row: EmailLog)
    requires Valid(s)
    requires row.id == NextId(LogIds(s.logs))
    requires row.apiKeyId in KeyIds(s.keys)
    requires WellFormedLog(row)
    ensures Valid(s.(logs := s.logs + [row]))
  {
    var ids := LogIds(s.logs);
    AppendNextId(ids);
    assert LogIds(s.logs + [row]) == ids + [row.id];
  }

  /** Appending a key with the next id, an unused token and an existing owner
      keeps the store valid. */
  lemma AppendKeyPreservesValid(s: Store, key: ApiKey)
    requires Valid(s)
    requires key.id == NextId(KeyIds(s.keys))
    requires forall i :: 0 <= i < |s.keys| ==> s.keys[i].token != key.token
    requires key.userId in UserIds(s.users)
    ensures Valid(s.(keys := s.keys + [key]))
  {
    var ids := KeyIds(s.keys);
    AppendNextId(ids);
    var keys := s.keys + [key];
    assert KeyIds(keys) == ids + [key.id];
    assert TokensUnique(keys) by {
      forall i, j | 0 <= i < j < |keys| ensures keys[i].token != keys[j].token {
        if j < |s.keys| {
          assert keys[i] == s.keys[i] && keys[j] == s.keys[j];
        } else {
          assert keys[i] == s.keys[i] && keys[j] == key;
        }
      }
    }
    assert forall i :: 0 <= i < |keys| ==> keys[i].userId in UserIds(s.users) by {
      forall i | 0 <= i < |keys| ensures keys[i].userId in UserIds(s.users) {
        if i < |s.keys| { assert keys[i] == s.keys[i]; }
      }
    }
    assert forall i :: 0 <= i < |s.logs| ==> s.logs[i].apiKeyId in KeyIds(keys) by {
      forall i | 0 <= i < |s.logs| ensures s.logs[i].apiKeyId in KeyIds(keys) {
        assert s.logs[i].apiKeyId in ids;
      }
    }
  }
}

=== FILE: options.dfy ===
/** The optional value used throughout the model: Python's `None`, an absent
    dictionary key, a JSON `null` or an unset environment variable. */
module Options {

  datatype Option<+T> = None | Some(value: T) {

    /** The wrapped value, or `default` when there is none (Python's `x or default`
        for values that are never falsy). */
    function GetOr(default: T): T {
      match this
      case Some(v) => v
      case None => default
    }
  }
}

=== FILE: pyint.dfy ===
/** Python's conversions between `int` and decimal text: `int(s)` on a string
    (which the port setting goes through) and `str(n)` / f-string rendering of
    an integer (which the debug messages use). */
module PyInt {
  import opened Options
  import opened PyText

  predicate IsDigit(c: char) {
    '0' <= c <= '9'
  }

  function DigitValue(c: char): (d: nat)
    requires IsDigit(c)
    ensures d < 10
  {
    (c as int) - ('0' as int)
  }

  function DigitChar(d: nat): (c: char)
    requires d < 10
    ensures IsDigit(c) && DigitValue(c) == d
  {
    (('0' as int) + d) as char
  }

  /** Characters that may appear in the digit part of a base-10 literal. */
  predicate DigitsOrUnderscores(s: string) {
    forall k :: 0 <= k < |s| ==> IsDigit(s[k]) || s[k] == '_'
  }

  /** The digit part `int()` accepts in base 10: ASCII digits, where a single
      underscore may separate two digits (`"1_000"`), leading zeros allowed. */
  predicate IsDigitGroup(s: string) {
    && |s| > 0
    && IsDigit(s[0])
    && IsDigit(s[|s| - 1])
    && DigitsOrUnderscores(s)
    && forall k :: 0 <= k < |s| - 1 && s[k] == '_' ==> s[k + 1] != '_'
  }

  /** The value of a digit part, reading digits left to right and skipping
      underscores. */
  function GroupValue(s: string): nat
    requires DigitsOrUnderscores(s)
    decreases |s|
  {
    if |s| == 0 then 0
    else
      var init := GroupValue(s[..|s| - 1]);
      if s[|s| - 1] == '_' then init else init * 10 + DigitValue(s[|s| - 1])
  }

  /** CPython's default bound on the digits of an integer converted from or
      to decimal text (`sys.get_int_max_str_digits()`). */
  const MaxStrDigits: nat := 4300

  /** The number of digits in a digit part: underscores do not count, leading
      zeros do. */
  function DigitCount(s: string): nat
    decreases |s|
  {
    if |s| == 0 then 0
    else DigitCount(s[..|s| - 1]) + (if s[|s| - 1] == '_' then 0 else 1)
  }

  /** A digit part `int()` accepts: well formed, and within the digit limit. */
  predicate Readable(s: string) {
    IsDigitGroup(s) && DigitCount(s) <= MaxStrDigits
  }

  /** Python's `int(s)` for a string in base 10: surrounding whitespace (in
      the narrower sense of `IsIntSpace`) is ignored, then an optional sign and
      a digit part of at most `MaxStrDigits` digits; anything else raises
      `ValueError`, modelled as `None`. */
  function ParseInt(s: string): Option<int> {
    ParseSigned(Trim(s, IsIntSpace))
  }

  /** The part of `int()` after whitespace is stripped: an optional sign and a
      digit part. */
  function ParseSigned(t: string): Option<int> {
    if |t| > 0 && (t[0] == '+' || t[0] == '-') then
      if Readable(t[1..]) then
        var magnitude: int := GroupValue(t[1..]);
        Some(if t[0] == '-' then -magnitude else magnitude)
      else None
    else if Readable(t) then Some(GroupValue(t))
    else None
  }

  /** Decimal rendering of a natural number, most significant digit first,
      without leading zeros. */
  function NatToString(n: nat): (s: string)
    ensures |s| > 0
    ensures forall k :: 0 <= k < |s| ==> IsDigit(s[k])
    ensures n > 0 ==> s[0] != '0'
    decreases n
  {
    if n < 10 then [DigitChar(n)] else NatToString(n / 10) + [DigitChar(n % 10)]
  }

  /** Python's `str(n)` for an integer. */
  function IntToString(n: int): string {
    if n < 0 then "-" + NatToString(-n) else NatToString(n)
  }

  lemma {:induction false} GroupValueOfNatToString(n: nat)
    ensures DigitsOrUnderscores(NatToString(n))
    ensures GroupValue(NatToString(n)) == n
    ensures DigitCount(NatToString(n)) == |NatToString(n)|
    decreases n
  {
    var s := NatToString(n);
    if n >= 10 {
      GroupValueOfNatToString(n / 10);
      assert s[..|s| - 1] == NatToString(n / 10);
    }
  }

  /** The rendering of a natural number is a digit part worth that number. */
  lemma NatToStringIsDigitGroup(n: nat)
    ensures IsDigitGroup(NatToString(n))
    ensures GroupValue(NatToString(n)) == n
    ensures DigitCount(NatToString(n)) == |NatToString(n)|
  {
    GroupValueOfNatToString(n);
  }

  /** Rendered integers carry no surrounding whitespace. */
  lemma IntToStringStripped(n: int)
    ensures Trim(IntToString(n), IsIntSpace) == IntToString(n)
  {
    var s := IntToString(n);
    var digits := NatToString(if n < 0 then -n else n);
    assert s[|s| - 1] == digits[|digits| - 1];
    assert IsDigit(s[|s| - 1]) && (IsDigit(s[0]) || s[0] == '-');
    TrimNoSurrounding(s, IsIntSpace);
  }

  /** `int()` skips a blank before the digits, and reads them when they are
      within the digit limit. */
  lemma ParseBlankPadded(digits: string)
    requires IsDigitGroup(digits)
    ensures ParseInt([' '] + digits) == if Readable(digits) then Some(GroupValue(digits)) else None
  {
    assert IsDigit(digits[0]) && IsDigit(digits[|digits| - 1]);
    TrimNoSurrounding(digits, IsIntSpace);
    TrimLeadingPad(' ', digits, IsIntSpace);
    ParseUnsigned(digits);
  }

  /** `int()` rejects an ASCII information separator before the digits, which
      `str.strip()` would have removed. */
  lemma ParseSeparatorPadded(c: char, digits: string)
    requires 0x1C <= c as int <= 0x1F && IsDigitGroup(digits)
    ensures IsSpace(c) && ParseInt([c] + digits) == None
  {
    var s := [c] + digits;
    assert s[|s| - 1] == digits[|digits| - 1];
    TrimNoSurrounding(s, IsIntSpace);
  }

  /** An unsigned digit part without surrounding whitespace parses to its
      value, unless it has more digits than the limit allows. */
  lemma ParseUnsigned(s: string)
    requires IsDigitGroup(s)
    ensures ParseSigned(s) == if DigitCount(s) <= MaxStrDigits then Some(GroupValue(s)) else None
  {
    assert IsDigit(s[0]);
  }

  /** A minus sign followed by a digit part parses to the negated value. */
  lemma ParseNegative(d: string)
    requires Readable(d)
    ensures ParseSigned("-" + d) == Some(-(GroupValue(d) as int))
  {
    assert ("-" + d)[1..] == d;
  }

  /** A rendered natural number within the digit limit reads back as itself. */
  lemma ParseNatToString(n: nat)
    requires |NatToString(n)| <= MaxStrDigits
    ensures ParseSigned(NatToString(n)) == Some(n as int)
  {
    NatToStringIsDigitGroup(n);
    ParseUnsigned(NatToString(n));
  }

  /** A rendered negative number within the digit limit reads back as itself. */
  lemma ParseNegativeToString(n: nat)
    requires |NatToString(n)| <= MaxStrDigits
    ensures ParseSigned("-" + NatToString(n)) == Some(-(n as int))
  {
    NatToStringIsDigitGroup(n);
    ParseNegative(NatToString(n));
  }

  /** A rendered integer, read back without its whitespace step, is itself. */
  lemma ParseSignedIntToString(n: int)
    requires |NatToString(if n < 0 then -n else n)| <= MaxStrDigits
    ensures ParseSigned(IntToString(n)) == Some(n)
  {
    if n < 0 {
      ParseNegativeToString(-n);
    } else {
      ParseNatToString(n);
    }
  }

  /** `int(str(n)) == n` for every integer `str()` can render, that is, one
      of at most `MaxStrDigits` digits. */
  lemma ParseIntToString(n: int)
    requires |NatToString(if n < 0 then -n else n)| <= MaxStrDigits
    ensures ParseInt(IntToString(n)) == Some(n)
  {
    IntToStringStripped(n);
    ParseSignedIntToString(n);
  }

  function Pow10(k: nat): (p: nat)
    ensures p >= 1
  {
    if k == 0 then 1 else 10 * Pow10(k - 1)
  }

  /** A digit part with `k` digits is worth less than `10^k`. */
  lemma {:induction false} GroupValueBound(s: string)
    requires DigitsOrUnderscores(s)
    ensures GroupValue(s) < Pow10(DigitCount(s))
    decreases |s|
  {
    if |s| > 0 {
      var init := s[..|s| - 1];
      GroupValueBound(init);
      if s[|s| - 1] != '_' {
        var p := Pow10(DigitCount(init));
        assert GroupValue(init) + 1 <= p;
        assert GroupValue(s) == GroupValue(init) * 10 + DigitValue(s[|s| - 1]);
        assert GroupValue(init) * 10 + 10 <= p * 10;
      }
    }
  }

  /** A number below `10^k` renders in at most `k` digits. */
  lemma {:induction false} NatToStringLength(n: nat, k: nat)
    requires 1 <= k && n < Pow10(k)
    ensures |NatToString(n)| <= k
    decreases k
  {
    if n >= 10 {
      assert n / 10 < Pow10(k - 1);
      NatToStringLength(n / 10, k - 1);
    }
  }

  /** Whatever `int()` reads, `str()` can render again: a value read from a
      digit part of at most `MaxStrDigits` digits has at most that many. */
  lemma ParsedRenders(s: string)
    requires ParseInt(s).Some?
    ensures var n := ParseInt(s).value;
            |NatToString(if n < 0 then -n else n)| <= MaxStrDigits
  {
    var t := Trim(s, IsIntSpace);
    var d := if |t| > 0 && (t[0] == '+' || t[0] == '-') then t[1..] else t;
    assert Readable(d);
    assert IsDigit(d[|d| - 1]);
    assert DigitCount(d) >= 1;
    GroupValueBound(d);
    NatToStringLength(GroupValue(d), DigitCount(d));
  }
}

=== FILE: pytext.dfy ===
/** The handful of Python `str` operations the request handlers rely on:
    `strip()`, `startswith`, the `in` substring test, `split(sep)` and slicing.
    Each is defined the way CPython defines it, and each is paired with a
    lemma that says what the result means. */
module PyText {

  /** `str.isspace()` for one character: the characters CPython treats as
      whitespace, which `str.strip()` removes. */
  predicate IsSpace(c: char) {
    var n := c as int;
    (0x09 <= n <= 0x0D) || (0x1C <= n <= 0x20) || n == 0x85 || n == 0xA0 || n == 0x1680
    || (0x2000 <= n <= 0x200A) || n == 0x2028 || n == 0x2029 || n == 0x202F
    || n == 0x205F || n == 0x3000
  }

  /** The whitespace `int()` skips around a number. It is narrower than
      `IsSpace`: `int()` maps non-ASCII whitespace to a blank but tests ASCII
      characters with C's `isspace`, which does not count the separators
      U+001C..U+001F. */
  predicate IsIntSpace(c: char) {
    IsSpace(c) && !(0x1C <= c as int <= 0x1F)
  }

  predicate All(s: string, p: char -> bool) {
    forall k :: 0 <= k < |s| ==> p(s[k])
  }

  predicate AllSpace(s: string) {
    All(s, IsSpace)
  }

  /** Drops the leading characters that satisfy `p`: the result is a suffix of
      `s`, everything cut off satisfies `p`, and the result does not start with
      such a character. */
  function TrimLeft(s: string, p: char -> bool): (r: string)
    ensures |r| <= |s| && r == s[|s| - |r|..]
    ensures All(s[..|s| - |r|], p)
    ensures |r| > 0 ==> !p(r[0])
    decreases |s|
  {
    if |s| > 0 && p(s[0]) then TrimLeft(s[1..], p) else s
  }

  /** Drops the trailing characters that satisfy `p`: the result is a prefix
      of `s`, everything cut off satisfies `p`, and the result does not end
      with such a character. */
  function TrimRight(s: string, p: char -> bool): (r: string)
    ensures |r| <= |s| && r == s[..|r|]
    ensures All(s[|r|..], p)
    ensures |r| > 0 ==> !p(r[|r| - 1])
    decreases |s|
  {
    if |s| > 0 && p(s[|s| - 1]) then TrimRight(s[..|s| - 1], p) else s
  }

  /** Trims `p`-characters from both ends. */
  function Trim(s: string, p: char -> bool): string {
    TrimRight(TrimLeft(s, p), p)
  }

  /** Python's `s.strip()` with no argument. */
  function Strip(s: string): string {
    Trim(s, IsSpace)
  }

  /** A predicate holding on both sides of a split point holds throughout. */
  lemma AllSplit(s: string, k: nat, p: char -> bool)
    requires k <= |s|
    ensures All(s, p) <==> All(s[..k], p) && All(s[k..], p)
  {
    assert forall j :: 0 <= j < k ==> s[..k][j] == s[j];
    assert forall j :: k <= j < |s| ==> s[k..][j - k] == s[j];
  }

  /** A stripped string is empty exactly when the original was all whitespace:
      this is what the configuration check `not smtp_server` tests. */
  lemma StripEmptyIffAllSpace(s: string)
    ensures Strip(s) == "" <==> AllSpace(s)
  {
    var l := TrimLeft(s, IsSpace);
    var r := TrimRight(l, IsSpace);
    AllSplit(s, |s| - |l|, IsSpace);
    AllSplit(l, |r|, IsSpace);
    assert l[..0] == "";
    assert |r| > 0 ==> !IsSpace(l[0]);
  }

  /** A leading `p`-character makes no difference to trimming. */
  lemma TrimLeadingPad(c: char, s: string, p: char -> bool)
    requires p(c)
    ensures Trim([c] + s, p) == Trim(s, p)
  {
    assert ([c] + s)[1..] == s;
  }

  /** A string that neither starts nor ends with a `p`-character is left
      unchanged by trimming. */
  lemma TrimNoSurrounding(s: string, p: char -> bool)
    requires |s| > 0 && !p(s[0]) && !p(s[|s| - 1])
    ensures Trim(s, p) == s
  {
  }

  /** Python's `s.startswith(p)`. */
  predicate StartsWith(s: string, p: string) {
    |p| <= |s| && s[..|p|] == p
  }

  /** `t` occurs in `s` starting at position `i`. */
  predicate OccursAt(s: string, t: string, i: int) {
    0 <= i <= |s| - |t| && s[i..i + |t|] == t
  }

  /** Python's `t in s` for strings: `t` occurs in `s` at some position
      (the empty string occurs everywhere). */
  predicate Contains(s: string, t: string)
    decreases |s|
  {
    StartsWith(s, t) || (|s| > 0 && Contains(s[1..], t))
  }

  /** The substring test agrees with its positional reading: it holds exactly
      when some slice of `s` equals `t`. */
  lemma {:induction false} ContainsIffSlice(s: string, t: string)
    ensures Contains(s, t) <==> exists i :: OccursAt(s, t, i)
    decreases |s|
  {
    if StartsWith(s, t) {
      assert OccursAt(s, t, 0);
    } else if |s| == 0 {
    } else {
      ContainsIffSlice(s[1..], t);
      if exists i :: OccursAt(s, t, i) {
        var i :| OccursAt(s, t, i);
        assert i != 0;
        assert s[1..][i - 1..i - 1 + |t|] == s[i..i + |t|];
        assert OccursAt(s[1..], t, i - 1);
      }
      if Contains(s[1..], t) {
        var i :| OccursAt(s[1..], t, i);
        assert s[1..][i..i + |t|] == s[i + 1..i + 1 + |t|];
        assert OccursAt(s, t, i + 1);
      }
    }
  }

  /** Python's `s.split(c)` for a one-character separator: the pieces between
      consecutive separators, always at least one (`"".split(" ") == [""]`). */
  function Split(s: string, c: char): (r: seq<string>)
    ensures |r| >= 1
    decreases |s|
  {
    if |s| == 0 then [""]
    else if s[0] == c then [""] + Split(s[1..], c)
    else
      var rest := Split(s[1..], c);
      [[s[0]] + rest[0]] + rest[1..]
  }

  /** Python's `c.join(parts)`, the inverse of `split`. */
  function Join(parts: seq<string>, c: char): string
    decreases |parts|
  {
    if |parts| == 0 then ""
    else if |parts| == 1 then parts[0]
    else parts[0] + [c] + Join(parts[1..], c)
  }

  /** Splitting a string that does not start with the separator extends its
      first piece by the first character. */
  lemma SplitCons(s: string, c: char)
    requires |s| > 0 && s[0] != c
    ensures |Split(s, c)| == |Split(s[1..], c)|
    ensures Split(s, c)[0] == [s[0]] + Split(s[1..], c)[0]
    ensures Split(s, c)[1..] == Split(s[1..], c)[1..]
  {
  }

  /** Splitting loses nothing: joining the pieces with the separator gives back
      the original. */
  lemma {:induction false} JoinSplit(s: string, c: char)
    ensures Join(Split(s, c), c) == s
    decreases |s|
  {
    if |s| == 0 {
    } else if s[0] == c {
      JoinSplit(s[1..], c);
      var rest := Split(s[1..], c);
      assert Join([""] + rest, c) == "" + [c] + Join(rest, c);
      assert s == [c] + s[1..];
    } else {
      JoinSplit(s[1..], c);
      SplitCons(s, c);
      var rest := Split(s[1..], c);
      var r := Split(s, c);
      if |rest| == 1 {
        assert Join(r, c) == r[0];
      } else {
        assert Join(rest, c) == rest[0] + [c] + Join(rest[1..], c);
        assert Join(r, c) == r[0] + [c] + Join(r[1..], c);
      }
      assert s == [s[0]] + s[1..];
    }
  }

  /** No piece produced by `split(c)` contains the separator. */
  lemma {:induction false} SplitNoSeparator(s: string, c: char)
    ensures forall i :: 0 <= i < |Split(s, c)| ==> c !in Split(s, c)[i]
    decreases |s|
  {
    if |s| == 0 {
    } else if s[0] == c {
      SplitNoSeparator(s[1..], c);
      var rest := Split(s[1..], c);
      assert forall i :: 1 <= i < |Split(s, c)| ==> Split(s, c)[i] == rest[i - 1];
    } else {
      SplitNoSeparator(s[1..], c);
      SplitCons(s, c);
      var rest := Split(s[1..], c);
      var r := Split(s, c);
      assert forall i :: 1 <= i < |r| ==> r[i] == rest[i];
      assert c !in r[0];
    }
  }

  /** The longest prefix of `s` that does not contain `c`. */
  function TakeUntil(s: string, c: char): (r: string)
    ensures |r| <= |s| && r == s[..|r|]
    ensures c !in r
    ensures |r| < |s| ==> s[|r|] == c
    decreases |s|
  {
    if |s| == 0 || s[0] == c then "" else [s[0]] + TakeUntil(s[1..], c)
  }

  /** The first piece of a split is everything before the first separator. */
  lemma {:induction false} SplitFirstPiece(s: string, c: char)
    ensures Split(s, c)[0] == TakeUntil(s, c)
    decreases |s|
  {
    if |s| > 0 && s[0] != c {
      SplitFirstPiece(s[1..], c);
    }
  }

  /** For a string starting with a separator-free word and the separator,
      `split` has a second piece and it is what follows the separator up to the
      next one: `"Bearer x y".split(" ")[1] == "x"` and `"Bearer ".split(" ")[1] == ""`. */
  lemma {:induction false} SplitSecondPiece(word: string, rest: string, c: char)
    requires c !in word
    ensures |Split(word + [c] + rest, c)| >= 2
    ensures Split(word + [c] + rest, c)[1] == TakeUntil(rest, c)
    decreases |word|
  {
    var s := word + [c] + rest;
    if |word| == 0 {
      assert s == [c] + rest;
      assert s[1..] == rest;
      SplitFirstPiece(rest, c);
    } else {
      assert s[0] == word[0];
      assert s[1..] == word[1..] + [c] + rest;
      SplitSecondPiece(word[1..], rest, c);
    }
  }
}

=== FILE: send.dfy ===
/** The send endpoint `POST /api/v1/send`: authenticate the bearer token,
    validate the payload, check the SMTP configuration, run the SMTP
    conversation and record its outcome as one delivery-log row. */
module Send {
  import opened Options
  import opened PyText
  import opened PyInt
  import opened Models
  import opened Http
  import opened Auth
  import opened Smtp

  const MissingFieldsError: string := "Missing required fields: 'to', 'subject'"
  const MissingContentError: string := "Missing email content. Provide 'body' (text) or 'html'."
  const ConfigError: string := "Server configuration error"
  const SentMessage: string := "Email sent successfully"
  const NetworkHint: string :=
    "Network Unreachable. On PythonAnywhere Free Tier? You can ONLY use 'smtp.gmail.com' on port 587 or 465. Other servers are blocked."

  /** The payload is a non-empty object holding the keys `to` and `subject`
      (their values are not inspected: null and `""` pass). */
  predicate HasRequiredFields(payload: Option<Json>) {
    payload.Some? && payload.value != map[] && "to" in payload.value && "subject" in payload.value
  }

  /** At least one of `body` and `html` is a non-empty string. */
  predicate HasContent(data: Json) {
    Truthy(Get(data, "body")) || Truthy(Get(data, "html"))
  }

  /** The request got past authentication, validation and the configuration
      check, so the SMTP conversation is attempted. */
  predicate ReachesTransport(store: Store, header: Option<string>, payload: Option<Json>, env: Env) {
    && Authenticate(store.keys, header).Authorized?
    && HasRequiredFields(payload)
    && HasContent(payload.value)
    && Complete(LoadConfig(env))
  }

  /** The text an SMTP failure is reported and logged with: unreachable-network
      errors are replaced by a fixed hint, everything else is kept. */
  function ErrorText(e: string): string {
    if Contains(e, "Network is unreachable") || Contains(e, "Errno 101") then NetworkHint else e
  }

  function ConfigDebug(cfg: SmtpConfig): string {
    "SMTP Config Missing. Server: '" + cfg.server + "', User: '" + cfg.username + "'"
  }

  function ConnectDebug(cfg: SmtpConfig): string {
    "Failed to connect to " + cfg.server + ":" + IntToString(cfg.port)
  }

  /** The message the conversation sends for a validated payload. */
  function MessageFor(cfg: SmtpConfig, data: Json): Message
    requires "to" in data && "subject" in data
  {
    BuildMessage(cfg.username, data["to"], data["subject"], Get(data, "body"), Get(data, "html"))
  }

  /** The SMTP conversation a validated payload leads to. */
  function SessionFor(cfg: SmtpConfig, data: Json, t: Transport): Run
    requires "to" in data && "subject" in data
  {
    Session(cfg, data["to"], MessageFor(cfg, data), t)
  }

  /** The HTTP response, the store after the request, and the SMTP calls made. */
  datatype SendOutcome = SendOutcome(response: Response, store: Store, trace: seq<Step>)

  /** The handler. `env` is the process environment, `t` the behaviour of the
      upstream server and `now` the clock reading used as the row's timestamp. */
  function SendEmail(store: Store, header: Option<string>, payload: Option<Json>,
                     env: Env, t: Transport, now: int): (out: SendOutcome)
    ensures out.store.users == store.users && out.store.keys == store.keys
    ensures out.store.logs == store.logs
            || (|out.store.logs| == |store.logs| + 1 && out.store.logs[..|store.logs|] == store.logs)
    ensures out.response.status in {200, 400, 401, 500}
    ensures out.response.status == 401 <==> Authenticate(store.keys, header).Rejected?
    ensures out.trace != [] ==> ReachesTransport(store, header, payload, env)
    ensures out.store.logs != store.logs ==>
              var row := out.store.logs[|store.logs|];
              && ReachesTransport(store, header, payload, env)
              && WellFormedLog(row)
              && row.id == NextId(LogIds(store.logs))
              && row.apiKeyId == Authenticate(store.keys, header).key.id
              && (row.status == Sent <==> out.response.status == 200)
  {
    match Authenticate(store.keys, header)
    case Rejected(error) => SendOutcome(Response(401, ErrorBody(error)), store, [])
    case Authorized(key) =>
      if !HasRequiredFields(payload) then
        SendOutcome(Response(400, ErrorBody(MissingFieldsError)), store, [])
      else
        var data := payload.value;
        if !HasContent(data) then
          SendOutcome(Response(400, ErrorBody(MissingContentError)), store, [])
        else
          var cfg := LoadConfig(env);
          if !Complete(cfg) then
            SendOutcome(Response(500, DebugErrorBody(ConfigError, ConfigDebug(cfg))), store, [])
          else
            RecordOutcome(store, key, data, cfg, SessionFor(cfg, data, t), now)
  }

  /** The part of the handler after the SMTP conversation `run`: the pending
      row is given its terminal status and stored, and the response reports
      the outcome. A null `to` or `subject` violates the NOT NULL columns, so
      storing the row raises and the handler ends in an uncaught exception. */
  function RecordOutcome(store: Store, key: ApiKey, data: Json, cfg: SmtpConfig, run: Run, now: int)
    : (out: SendOutcome)
    requires "to" in data && "subject" in data
    ensures out.store.users == store.users && out.store.keys == store.keys
    ensures out.trace == run.attempted
    ensures out.response.status in {200, 500}
    ensures out.store.logs == store.logs
            || (|out.store.logs| == |store.logs| + 1 && out.store.logs[..|store.logs|] == store.logs)
    ensures out.store.logs != store.logs ==>
              var row := out.store.logs[|store.logs|];
              && WellFormedLog(row)
              && row.id == NextId(LogIds(store.logs))
              && row.apiKeyId == key.id
              && (row.status == Sent <==> out.response.status == 200)
  {
    if data["to"].None? || data["subject"].None? then
      SendOutcome(Response(500, ServerErrorPage), store, run.attempted)
    else
      var log := EmailLog(NextId(LogIds(store.logs)), data["to"].value, data["subject"].value,
                          Pending, now, key.id, None);
      match run.error
      case None =>
        var row := log.(status := Sent);
        SendOutcome(Response(200, SentBody(row.id, SentMessage)),
                    store.(logs := store.logs + [row]), run.attempted)
      case Some(e) =>
        var row := log.(status := Failed, errorMessage := Some(ErrorText(e)));
        SendOutcome(Response(500, DebugErrorBody(ErrorText(e), ConnectDebug(cfg))),
                    store.(logs := store.logs + [row]), run.attempted)
  }

  /** A missing, malformed or unknown/inactive bearer token is answered 401
      before anything else: no SMTP call, no log row. */
  lemma RejectedRequestLeavesNoTrace(store: Store, header: Option<string>, payload: Option<Json>,
                                     env: Env, t: Transport, now: int)
    requires Authenticate(store.keys, header).Rejected?
    ensures var out := SendEmail(store, header, payload, env, t, now);
            && out.response == Response(401, ErrorBody(Authenticate(store.keys, header).error))
            && out.store == store
            && out.trace == []
  {
  }

  /** An authenticated request is answered 400 exactly when the payload lacks
      `to` or `subject` (or is empty or absent) or carries neither a truthy
      `body` nor a truthy `html`; then no SMTP call is made and no row added. */
  lemma InvalidPayloadLeavesNoTrace(store: Store, header: Option<string>, payload: Option<Json>,
                                    env: Env, t: Transport, now: int)
    requires Authenticate(store.keys, header).Authorized?
    ensures var out := SendEmail(store, header, payload, env, t, now);
            && (out.response.status == 400 <==>
                  !HasRequiredFields(payload) || !HasContent(payload.value))
            && (!HasRequiredFields(payload) ==>
                  out == SendOutcome(Response(400, ErrorBody(MissingFieldsError)), store, []))
            && (HasRequiredFields(payload) && !HasContent(payload.value) ==>
                  out == SendOutcome(Response(400, ErrorBody(MissingContentError)), store, []))
  {
  }

  /** A blank server, user name or password (after stripping whitespace) is a
      configuration error: 500, no SMTP call, no log row. */
  lemma IncompleteConfigLeavesNoTrace(store: Store, header: Option<string>, payload: Option<Json>,
                                      env: Env, t: Transport, now: int)
    requires Authenticate(store.keys, header).Authorized?
    requires HasRequiredFields(payload) && HasContent(payload.value)
    requires AllSpace(env.server.GetOr("")) || AllSpace(env.username.GetOr(""))
             || AllSpace(env.password.GetOr(""))
    ensures var out := SendEmail(store, header, payload, env, t, now);
            && out.response == Response(500, DebugErrorBody(ConfigError, ConfigDebug(LoadConfig(env))))
            && out.store == store
            && out.trace == []
  {
    IncompleteIffBlank(env);
  }

  /** Once past the configuration check, the SMTP calls made are a prefix of
      the conversation planned for this configuration and payload: every call
      before the last one made succeeded, the prefix stops at the first
      failure, and `quit` follows exactly when the connection was opened. */
  lemma TransportFollowsPlan(store: Store, header: Option<string>, payload: Option<Json>,
                             env: Env, t: Transport, now: int)
    requires ReachesTransport(store, header, payload, env)
    ensures var out := SendEmail(store, header, payload, env, t, now);
            var cfg := LoadConfig(env);
            var plan := Plan(cfg, payload.value["to"], MessageFor(cfg, payload.value));
            exists k :: 1 <= k <= |plan|
              && (forall i :: 0 <= i < k - 1 ==> plan[i] !in t.failures)
              && (k < |plan| ==> plan[k - 1] in t.failures)
              && out.trace == plan[..k] + (if plan[0] in t.failures then [] else [Quit])
  {
    var cfg := LoadConfig(env);
    SessionFollowsPlan(cfg, payload.value["to"], MessageFor(cfg, payload.value), t);
  }

  /** A request that reaches the transport with a string `to` and `subject`
      appends exactly one row, carrying the recipient, subject, key and time
      of the request: `sent` with a 200 naming the row's id when the
      conversation succeeds, `failed` with the error text and a 500 otherwise. */
  lemma DeliveryIsLogged(store: Store, header: Option<string>, payload: Option<Json>,
                         env: Env, t: Transport, now: int)
    requires ReachesTransport(store, header, payload, env)
    requires payload.value["to"].Some? && payload.value["subject"].Some?
    ensures var out := SendEmail(store, header, payload, env, t, now);
            var cfg := LoadConfig(env);
            var run := SessionFor(cfg, payload.value, t);
            var id := NextId(LogIds(store.logs));
            && |out.store.logs| == |store.logs| + 1
            && out.store.logs[..|store.logs|] == store.logs
            && var row := out.store.logs[|store.logs|];
            && row.id == id
            && row.recipient == payload.value["to"].value
            && row.subject == payload.value["subject"].value
            && row.apiKeyId == Authenticate(store.keys, header).key.id
            && row.timestamp == now
            && (run.error.None? ==>
                  && row.status == Sent && row.errorMessage == None
                  && out.response == Response(200, SentBody(id, SentMessage)))
            && (run.error.Some? ==>
                  && row.status == Failed
                  && row.errorMessage == Some(ErrorText(run.error.value))
                  && out.response == Response(500, DebugErrorBody(ErrorText(run.error.value), ConnectDebug(cfg))))
  {
  }

  /** A null `to` or `subject` passes validation, but the row cannot be stored
      (NOT NULL columns): the request ends in a 500 with no row. */
  lemma NullFieldIsNotLogged(store: Store, header: Option<string>, payload: Option<Json>,
                             env: Env, t: Transport, now: int)
    requires ReachesTransport(store, header, payload, env)
    requires payload.value["to"].None? || payload.value["subject"].None?
    ensures var out := SendEmail(store, header, payload, env, t, now);
            && out.response == Response(500, ServerErrorPage)
            && out.store == store
  {
  }

  /** The error text replaces unreachable-network failures with the fixed hint
      and reports every other failure verbatim. */
  lemma ErrorTextReplacesUnreachable(e: string)
    ensures ((exists i :: OccursAt(e, "Network is unreachable", i)) || (exists i :: OccursAt(e, "Errno 101", i)))
              ==> ErrorText(e) == NetworkHint
    ensures (!(exists i :: OccursAt(e, "Network is unreachable", i)) && !(exists i :: OccursAt(e, "Errno 101", i)))
              ==> ErrorText(e) == e
  {
    ContainsIffSlice(e, "Network is unreachable");
    ContainsIffSlice(e, "Errno 101");
  }

  /** Teardown is best effort: how `quit` behaves never changes the response,
      the store or the calls made. */
  lemma QuitNeverChangesOutcome(store: Store, header: Option<string>, payload: Option<Json>,
                                env: Env, t1: Transport, t2: Transport, now: int)
    requires SameExceptQuit(t1, t2)
    ensures SendEmail(store, header, payload, env, t1, now) == SendEmail(store, header, payload, env, t2, now)
  {
    if ReachesTransport(store, header, payload, env) {
      var cfg := LoadConfig(env);
      var data := payload.value;
      SessionIgnoresQuit(cfg, data["to"], MessageFor(cfg, data), t1, t2);
    }
  }

  /** Sending keeps the store's invariant. */
  lemma SendPreservesValid(store: Store, header: Option<string>, payload: Option<Json>,
                           env: Env, t: Transport, now: int)
    requires Valid(store)
    ensures Valid(SendEmail(store, header, payload, env, t, now).store)
  {
    var out := SendEmail(store, header, payload, env, t, now);
    if out.store.logs != store.logs {
      var key := Authenticate(store.keys, header).key;
      var row := out.store.logs[|store.logs|];
      assert out.store.logs == store.logs + [row];
      var i :| 0 <= i < |store.keys| && store.keys[i] == key;
      assert KeyIds(store.keys)[i] == key.id;
      AppendLogPreservesValid(store, row);
    }
  }

  /** No deduplication: sending the same request twice records two distinct
      rows. */
  lemma RepeatedSendLogsTwice(store: Store, header: Option<string>, payload: Option<Json>,
                              env: Env, t: Transport, now1: int, now2: int)
    requires ReachesTransport(store, header, payload, env)
    requires payload.value["to"].Some? && payload.value["subject"].Some?
    ensures var first := SendEmail(store, header, payload, env, t, now1);
            var second := SendEmail(first.store, header, payload, env, t, now2);
            && |second.store.logs| == |store.logs| + 2
            && second.store.logs[|store.logs|].id != second.store.logs[|store.logs| + 1].id
  {
    var first := SendEmail(store, header, payload, env, t, now1);
    DeliveryIsLogged(store, header, payload, env, t, now1);
    assert ReachesTransport(first.store, header, payload, env);
    DeliveryIsLogged(first.store, header, payload, env, t, now2);
    var second := SendEmail(first.store, header, payload, env, t, now2);
    assert second.store.logs[|store.logs|] == first.store.logs[|store.logs|];
    assert LogIds(first.store.logs)[|store.logs|] == first.store.logs[|store.logs|].id;
  }
}

=== FILE: smtp.dfy ===
/** The upstream SMTP conversation of one send: the configuration it reads,
    the message it builds, and the fixed sequence of client calls it makes.
    The network is replaced by a transport oracle that says which calls fail
    and with what text. */
module Smtp {
  import opened Options
  import opened PyText
  import opened PyInt

  const DefaultPort: int := 587
  const ImplicitTlsPort: int := 465

  /** The four environment variables, each possibly unset. */
  datatype Env = Env(
    server: Option<string>,
    port: Option<string>,
    username: Option<string>,
    password: Option<string>)

  datatype SmtpConfig = SmtpConfig(server: string, port: int, username: string, password: string)

  /** `int(os.getenv("MAIL_PORT", 587))`, falling back to 587 on `ValueError`. */
  function ParsePort(setting: Option<string>): (p: int)
    ensures setting.None? ==> p == DefaultPort
    ensures setting.Some? && ParseInt(setting.value).None? ==> p == DefaultPort
    ensures setting.Some? && ParseInt(setting.value).Some? ==> p == ParseInt(setting.value).value
  {
    match setting
    case None => DefaultPort
    case Some(s) =>
      match ParseInt(s)
      case None => DefaultPort
      case Some(n) => n
  }

  /** A port written out in decimal is read back as itself, for every
      integer `str()` can render. */
  lemma ParsePortRendered(n: int)
    requires |NatToString(if n < 0 then -n else n)| <= MaxStrDigits
    ensures ParsePort(Some(IntToString(n))) == n
  {
    ParseIntToString(n);
  }

  /** A port setting with a blank before the number selects that number,
      one with an ASCII information separator (U+001C..U+001F) there falls
      back to 587: `" 465"` selects port 465, `"\U{1C}465"` selects 587. */
  lemma ParsePortPadding(c: char, digits: string)
    requires 0x1C <= c as int <= 0x1F && IsDigitGroup(digits)
    ensures ParsePort(Some([' '] + digits)) == if Readable(digits) then GroupValue(digits) else DefaultPort
    ensures ParsePort(Some([c] + digits)) == DefaultPort
  {
    ParseBlankPadded(digits);
    ParseSeparatorPadded(c, digits);
  }

  /** A port setting made of digits selects their value when it has at most
      `MaxStrDigits` digits and falls back to 587 otherwise, even when the
      value is small: `"0" * 4298 + "465"` selects 587. */
  lemma ParsePortDigits(digits: string)
    requires IsDigitGroup(digits)
    ensures ParsePort(Some(digits)) == if DigitCount(digits) <= MaxStrDigits then GroupValue(digits) else DefaultPort
  {
    TrimNoSurrounding(digits, IsIntSpace);
    ParseUnsigned(digits);
  }

  /** The port the configuration ends up with can always be rendered by
      `str()`, as the connection debug message does. */
  lemma PortRenders(setting: Option<string>)
    ensures var p := ParsePort(setting);
            |NatToString(if p < 0 then -p else p)| <= MaxStrDigits
  {
    var p := ParsePort(setting);
    if setting.Some? && ParseInt(setting.value).Some? {
      ParsedRenders(setting.value);
    } else {
      assert p == 587 < Pow10(3) by {
        assert Pow10(3) == 1000;
      }
      NatToStringLength(p, 3);
    }
  }

  /** Reads and cleans the configuration: unset values become `""`, and the
      server, user name and password are stripped of whitespace. */
  function LoadConfig(env: Env): SmtpConfig {
    SmtpConfig(
      Strip(env.server.GetOr("")),
      ParsePort(env.port),
      Strip(env.username.GetOr("")),
      Strip(env.password.GetOr("")))
  }

  /** The configuration check: server, user name and password all non-empty. */
  predicate Complete(cfg: SmtpConfig) {
    cfg.server != "" && cfg.username != "" && cfg.password != ""
  }

  /** A setting is missing for the configuration check exactly when it is
      unset or consists only of whitespace. */
  lemma IncompleteIffBlank(env: Env)
    ensures !Complete(LoadConfig(env)) <==>
              AllSpace(env.server.GetOr("")) || AllSpace(env.username.GetOr(""))
              || AllSpace(env.password.GetOr(""))
  {
    StripEmptyIffAllSpace(env.server.GetOr(""));
    StripEmptyIffAllSpace(env.username.GetOr(""));
    StripEmptyIffAllSpace(env.password.GetOr(""));
  }

  /** One part of a `multipart/alternative` message. */
  datatype Part = PlainPart(text: string) | HtmlPart(text: string)

  /** The message handed to `sendmail`, before MIME serialisation. The `To`
      and `Subject` headers carry the request values as given, null included. */
  datatype Message = Message(
    sender: string,
    to: Option<string>,
    subject: Option<string>,
    parts: seq<Part>)

  /** Builds the message: a plain part when the text body is truthy, then an
      HTML part when the HTML body is truthy. */
  function BuildMessage(sender: string, to: Option<string>, subject: Option<string>,
                        text: Option<string>, html: Option<string>): (m: Message)
    ensures m.sender == sender && m.to == to && m.subject == subject
    ensures PlainPart(text.GetOr("")) in m.parts <==> text.Some? && text.value != ""
    ensures HtmlPart(html.GetOr("")) in m.parts <==> html.Some? && html.value != ""
    ensures |m.parts| <= 2
    ensures forall i :: 0 <= i < |m.parts| ==> m.parts[i] == PlainPart(text.GetOr(""))
                                               || m.parts[i] == HtmlPart(html.GetOr(""))
    ensures |m.parts| == 2 ==> m.parts[0].PlainPart? && m.parts[1].HtmlPart?
  {
    var plain := if text.Some? && text.value != "" then [PlainPart(text.value)] else [];
    var rich := if html.Some? && html.value != "" then [HtmlPart(html.value)] else [];
    Message(sender, to, subject, plain + rich)
  }

  /** The client calls of one conversation, with their arguments. */
  datatype Step =
    | OpenTls(host: string, port: int)   // `SMTP_SSL(host, port)`: connect inside TLS
    | Open(host: string, port: int)      // `SMTP(host, port)`: connect in clear text
    | Ehlo                               // the first greeting
    | StartTls                           // upgrade the clear-text connection
    | EhloAfterTls                       // the greeting repeated after the upgrade
    | Login(user: string, password: string)
    | SendMail(sender: string, recipient: Option<string>, message: Message)
    | Quit

  /** The transport oracle: the calls that raise, each with the text of its
      exception. A call not listed succeeds. */
  datatype Transport = Transport(failures: map<Step, string>)

  /** The connection phase: implicit TLS on port 465, otherwise a clear-text
      connection upgraded with STARTTLS and greeted twice. */
  function Handshake(cfg: SmtpConfig): seq<Step> {
    if cfg.port == ImplicitTlsPort then
      [OpenTls(cfg.server, cfg.port), Ehlo]
    else
      [Open(cfg.server, cfg.port), Ehlo, StartTls, EhloAfterTls]
  }

  /** Every call of the conversation before teardown, in order. */
  function Plan(cfg: SmtpConfig, recipient: Option<string>, msg: Message): seq<Step> {
    Handshake(cfg) + [Login(cfg.username, cfg.password), SendMail(cfg.username, recipient, msg)]
  }

  /** The calls made and the text of the exception that stopped them, if any. */
  datatype Run = Run(attempted: seq<Step>, error: Option<string>)

  /** Makes the calls in order until one raises: that call is the last one
      attempted and its text is the error; without a failure every call is made. */
  function RunSteps(steps: seq<Step>, t: Transport): (r: Run)
    ensures |r.attempted| <= |steps| && r.attempted == steps[..|r.attempted|]
    ensures forall i :: 0 <= i < |r.attempted| - 1 ==> r.attempted[i] !in t.failures
    ensures r.error.None? <==> r.attempted == steps && forall i :: 0 <= i < |steps| ==> steps[i] !in t.failures
    ensures r.error.Some? ==> |r.attempted| > 0
                              && r.attempted[|r.attempted| - 1] in t.failures
                              && r.error.value == t.failures[r.attempted[|r.attempted| - 1]]
    decreases |steps|
  {
    if |steps| == 0 then Run([], None)
    else if steps[0] in t.failures then Run([steps[0]], Some(t.failures[steps[0]]))
    else
      var rest := RunSteps(steps[1..], t);
      assert forall i :: 1 <= i < |steps| ==> steps[i] == steps[1..][i - 1];
      Run([steps[0]] + rest.attempted, rest.error)
  }

  /** The whole conversation: the planned calls, then `quit` exactly when the
      connection object was created (the first call succeeded). A failing
      `quit` is swallowed, so the error is that of the planned calls. */
  function Session(cfg: SmtpConfig, recipient: Option<string>, msg: Message, t: Transport): (r: Run)
    ensures Plan(cfg, recipient, msg)[0] in t.failures ==>
              r == Run([Plan(cfg, recipient, msg)[0]], Some(t.failures[Plan(cfg, recipient, msg)[0]]))
    ensures Plan(cfg, recipient, msg)[0] !in t.failures ==>
              r.error == RunSteps(Plan(cfg, recipient, msg), t).error
              && r.attempted == RunSteps(Plan(cfg, recipient, msg), t).attempted + [Quit]
  {
    var plan := Plan(cfg, recipient, msg);
    var run := RunSteps(plan, t);
    var connected := plan[0] !in t.failures;
    Run(run.attempted + (if connected then [Quit] else []), run.error)
  }

  /** Transports that agree on every call except `quit`. */
  ghost predicate SameExceptQuit(t1: Transport, t2: Transport) {
    forall s :: s != Quit ==> (s in t1.failures <==> s in t2.failures)
                              && (s in t1.failures ==> t1.failures[s] == t2.failures[s])
  }

  /** Whether or how `quit` fails never changes the calls made or the outcome. */
  lemma {:induction false} RunStepsIgnoresQuit(steps: seq<Step>, t1: Transport, t2: Transport)
    requires Quit !in steps
    requires SameExceptQuit(t1, t2)
    ensures RunSteps(steps, t1) == RunSteps(steps, t2)
    decreases |steps|
  {
    if |steps| > 0 {
      assert steps[0] != Quit;
      assert Quit !in steps[1..];
      RunStepsIgnoresQuit(steps[1..], t1, t2);
    }
  }

  /** A session's calls and outcome do not depend on how `quit` behaves: a
      successful send stays successful and an earlier error is preserved. */
  lemma SessionIgnoresQuit(cfg: SmtpConfig, recipient: Option<string>, msg: Message,
                           t1: Transport, t2: Transport)
    requires SameExceptQuit(t1, t2)
    ensures Session(cfg, recipient, msg, t1) == Session(cfg, recipient, msg, t2)
  {
    var plan := Plan(cfg, recipient, msg);
    assert Quit !in plan;
    RunStepsIgnoresQuit(plan, t1, t2);
  }

  /** The shape of every conversation: a prefix of the handshake-login-send
      plan, stopping at the first failing call, followed by `quit` exactly
      when the connection was opened. */
  lemma SessionFollowsPlan(cfg: SmtpConfig, recipient: Option<string>, msg: Message, t: Transport)
    ensures var r := Session(cfg, recipient, msg, t);
            var plan := Plan(cfg, recipient, msg);
            exists k :: 1 <= k <= |plan|
              && (forall i :: 0 <= i < k - 1 ==> plan[i] !in t.failures)
              && (r.error.None? <==> k == |plan| && plan[k - 1] !in t.failures)
              && (r.error.Some? ==> plan[k - 1] in t.failures && r.error.value == t.failures[plan[k - 1]])
              && r.attempted == plan[..k] + (if plan[0] in t.failures then [] else [Quit])
  {
    var plan := Plan(cfg, recipient, msg);
    var run := RunSteps(plan, t);
    var k := |run.attempted|;
    assert |plan| > 0;
    assert k > 0;
    assert run.attempted == plan[..k];
    assert forall i :: 0 <= i < k - 1 ==> plan[i] == run.attempted[i];
  }
}
